=== FILE: README.md ===
# Link checker and playlist builder, modelled in Dafny

This project models two pieces of logic of a lesson-site build.

**The link checker's crawl (`check-links.js`).** Starting from one URL, the
crawler fetches pages and keeps a few pieces of state:

- a registry `resources`, mapping each URL it has seen to the pages that link to it (its referrers);
- a pending queue;
- the counters `ok` and `broken`;
- a `failed` list.

When a document is text-like and lies under the start URL, the crawler registers its `href` values and then its `src` values:

- an `href` is cut at its first `#`, and `mailto:` links are skipped;
- a `src` is taken as it is.

A URL it has seen before gets one more referrer. A new URL is queued. When the queue is empty, it prints a report of the broken URLs, checks `ok + broken == |resources|`, and exits with failure if anything is broken.

The model (module `LinkCheck`) is a sequential FIFO worklist:

- The network and the HTML parser are an oracle `fetch` that gives the outcome for each URL. The links it returns are already resolved against the document's URL.
- `Step` processes one completion.
- `Drain` repeats `Step` until the queue is empty.
- `Finish` is the final report, the assertion and the exit decision.

**The playlist plugin (`playlists.js`).** For every configured collection, the plugin:

1. picks the files `<collection>/playlists/<name>txt`;
2. names each playlist after its file;
3. turns every non-empty line of the file into a lookup of the lesson file `<collection>/<line>`.

A playlist file without a non-empty line throws. The model is the module `Playlists`:

- `PlaylistName` and `PlaylistId` are the two string helpers.
- `BuildCollection` is the per-collection loop.
- `RunPlugin` is the plugin body.

Supporting modules:

- `Wrappers`: `Option`, `Result`, and the run-until-first-failure loop `MapUntilFailure`.
- `Strings`: the JavaScript string operations used. These are `indexOf`, `replace`, `split`, `join`, the `/[^\r\n]+/g` line scan and ASCII case folding.
- `Paths`: the POSIX flavour of Node's `path.basename`, `path.normalize` and `path.join`.

## Model

| member | source | states |
|---|---|---|
| LinkCheck.Seed | check-links.js:151-154 | The initial crawl has only the start URL registered, with `['start']` as its referrers and queued alone, and it satisfies the crawl invariant. |
| LinkCheck.StripFragment | check-links.js:120 | `split('#')[0]` is a prefix of the URL that has no `#`, and it is the whole URL unless the next character is a `#`. |
| LinkCheck.StripFragmentOfFragment | check-links.js:120 | Cutting `base#frag` gives `base` for every fragment. |
| LinkCheck.Register | check-links.js:125-146 | A known URL gets the document appended to the end of its referrer list and the queue is unchanged. A new URL is queued once with the list `[doc.url]`. All other entries and the counters are unchanged. |
| LinkCheck.RegisterKeepsInv | check-links.js:126-133 | Registering one URL preserves `ok + broken + \|queue\| == \|resources\|`, the distinctness of the queue, and the non-empty referrer lists. |
| LinkCheck.HrefUrls | check-links.js:117-124 | The URLs the `href` loop registers are at most one per `href`, and none has a `#` or starts with `mailto:`. |
| LinkCheck.HrefUrlsOne | check-links.js:118-124 | One `href` value yields its URL cut at the first `#`, or nothing when that URL starts with `mailto:`. |
| LinkCheck.HrefUrlsAppend | check-links.js:117-134 | The `href` loop handles the values one by one in document order: the URLs of two runs of values are those of each run, concatenated, with repeats kept. |
| LinkCheck.HrefUrlsMembers | check-links.js:117-124 | A URL is registered by the `href` loop iff some `href`, cut at its `#`, is that URL and does not start with `mailto:`. |
| LinkCheck.RegisterHref | check-links.js:118-133 | One `href` adds its cut URL to the keys unless it is a `mailto:` link. Every registered URL's referrer list gains the document once per occurrence, and all other lists are unchanged. A URL not registered before is appended to the queue, and nothing else is; the counters are unchanged. |
| LinkCheck.RegisterHrefs | check-links.js:116-134 | The `href` loop adds exactly the fragment-free, non-`mailto:` targets to the keys. Each URL's referrer list is its old list (empty for a new URL) followed by the document once per `href` that registers it, so a URL the document does not link to keeps its list. The queue gains exactly the targets not registered before, each once, in order of first occurrence. The counters are unchanged. |
| LinkCheck.RegisterSrcs | check-links.js:136-147 | The `src` loop adds exactly the `src` values to the keys. Each URL's referrer list is its old list followed by the document once per `src` naming it, and every other list is unchanged. The queue gains exactly the values not registered before, each once, in order of first occurrence. The counters are unchanged. |
| LinkCheck.RegisterHrefsKeepsInv | check-links.js:117-134 | The `href` loop preserves the crawl invariant. |
| LinkCheck.RegisterSrcsKeepsInv | check-links.js:137-147 | The `src` loop preserves the crawl invariant. |
| LinkCheck.HrefFragmentsShareEntry | check-links.js:117-134 | Two `href` values that differ only in their fragment create one entry and one queued fetch, and the document is recorded twice as its referrer. |
| LinkCheck.SrcFragmentsAreSeparate | check-links.js:137-147 | Two `src` values that differ only in their fragment are two entries, and both are queued. |
| LinkCheck.MailtoHrefIgnored | check-links.js:121-124 | An `href` that resolves to a `mailto:` URL leaves the crawl unchanged. |
| LinkCheck.MailtoSrcRegistered | check-links.js:137-147 | A new `mailto:` `src` is registered and queued like any other URL. |
| LinkCheck.Tally | check-links.js:99-106 | Every completion raises exactly one counter: `ok` iff the status is 200. Otherwise `broken` goes up and `{u, c}` is appended to `failed`, with the status or, for the `error` callback of lines 56-59, the transport error as code. |
| LinkCheck.TextLike | check-links.js:108-111 | A missing `content-type` header is never text-like: its string form `undefined` contains none of the markers. |
| LinkCheck.TextLikeIgnoresCase | check-links.js:109 | The marker test ignores ASCII case: a content type and its lower-cased form are text-like together. |
| LinkCheck.UndefinedHasNoMarker | check-links.js:109 | None of `text`, `javascript`, `css`, `json` and `xml` occurs in `undefined`, whatever the case. |
| LinkCheck.Crawlable | check-links.js:108-114 | A crawled document has a text-like content type, which a missing header never is, and a URL that begins with `start`. |
| LinkCheck.RegisterLinks | check-links.js:113-148 | A crawlable document adds exactly its `href` targets and `src` values to the keys. Each referrer list gains the document once per link to that URL, hrefs first, and every other list is unchanged. The queue gains exactly the new URLs, each once, in order of first occurrence. |
| LinkCheck.Step | check-links.js:95-149 | One completion raises `ok` when the status is 200. Otherwise it raises `broken` and appends the URL with its code to `failed`. It removes the head of the queue, appends exactly the newly registered URLs in order of first occurrence, and adds exactly the document's link targets to the keys. Each referrer list gains the document once per link to that URL and is otherwise unchanged. A document that is not text-like, or not under `start`, leaves `resources` and the rest of the queue unchanged. |
| LinkCheck.StepReferrers | check-links.js:126-146 | After one completion, a registered URL the document does not link to keeps its referrer list. A URL it does link to keeps its old list as a prefix, followed by the document. |
| LinkCheck.RecordedReferrers | check-links.js:126-146 | Under the per-occurrence referrer record, a registered URL outside the links keeps its list, and one inside gets the document after its old list. |
| LinkCheck.StepKeepsInv | check-links.js:95-149 | One completion preserves the crawl invariant. |
| LinkCheck.Drain | check-links.js:95-154 | Within a finite closed universe of URLs, the crawl terminates with an empty queue and `ok + broken == \|resources\|`. No registered URL or referrer is ever lost. The crawl stays in agreement with the oracle, registers only URLs reachable from `start`, and keeps every referrer list equal to the completed documents' links. |
| LinkCheck.FreshQueuedOnce | check-links.js:126-133 | A run of registrations queues every URL it registers for the first time exactly once, and queues nothing already registered. |
| LinkCheck.FreshAppend | check-links.js:116-147 | The URLs the `href` loop queues, followed by those the `src` loop queues after it, are the URLs the two loops queue together. |
| LinkCheck.SeedAccounted | check-links.js:151-154 | The seeded crawl agrees with the oracle: nothing has completed yet. |
| LinkCheck.FailedStaysAccounted | check-links.js:99-106 | Every `failed` entry is a URL whose request did not end in a 200, recorded with that outcome's code, and a completion keeps it so. |
| LinkCheck.CompletedStaysAccounted | check-links.js:95-149 | After a completion, every registered URL that is not queued has its outcome recorded and all its document's links registered. |
| LinkCheck.StepKeepsAccounted | check-links.js:95-149 | One completion preserves agreement with the oracle: failed entries are genuine, and every completed URL is healthy or reported and has its links registered. |
| LinkCheck.DrainedAccounted | check-links.js:75-89 | After draining, every registered URL whose request did not end in a 200 is in `failed` with its code, so `failed` is non-empty iff some registered URL is broken. |
| LinkCheck.SeedGrounded | check-links.js:151-154 | The seeded crawl has registered only `start`, and no document is yet anyone's referrer. |
| LinkCheck.DoneAfterStep | check-links.js:95-149 | One completion makes exactly its head URL complete: newly registered URLs are queued, and earlier completed URLs stay out of the queue. |
| LinkCheck.ReachStaysGrounded | check-links.js:113-148 | The URLs a completed document registers lie in every set that contains `start` and is closed under the oracle's links, provided the document's URL does. |
| LinkCheck.ReferrersStayCounted | check-links.js:126-146 | After a completion, each URL's referrer list names every document other than the seed's referrer exactly as often as that document's links name the URL if it has completed, and never otherwise. |
| LinkCheck.CountsCarryOver | check-links.js:126-146 | The exact referrer counts carry over when the completed head is appended once per link to every URL. |
| LinkCheck.CountStaysExact | check-links.js:126-146 | Appending the document once per link keeps one referrer list's count of each document exact. |
| LinkCheck.StepKeepsGrounded | check-links.js:95-149 | One completion keeps the registry within reach of `start` and keeps the referrer counts exact. |
| LinkCheck.DrainedGrounded | check-links.js:75-80 | After draining, each registered URL's referrers, and those the report prints for each broken URL, name every registered document as often as its links name the URL, and name no unregistered URL. |
| LinkCheck.DrainedCrawl | check-links.js:75-89 | A drained crawl that agrees with the oracle finishes with the full report and exit of CheckLinks. |
| LinkCheck.Report | check-links.js:75-80 | The report has one entry per `failed` item, in order, with its code and all referrers. It is missing (the `forEach` on `undefined` throws) exactly when some failed URL is unregistered. |
| LinkCheck.Finish | check-links.js:75-89 | The report throws iff some failed URL is unregistered. The assertion fails only if `ok + broken` differs from the registry size. Otherwise the report is complete and the run exits with failure when `broken != 0` and completes when `broken == 0`. |
| LinkCheck.FinishAfterDrain | check-links.js:75-89 | After the queue is drained, neither the report nor `assert.equal` fails. The run exits with failure iff `broken != 0`, iff `failed` is non-empty, and otherwise completes. |
| LinkCheck.CheckLinks | check-links.js:44-155 | The whole crawl ends with an empty queue and the tally equal to the registry size. The registry contains every URL that a crawled document links to, and only URLs that every link-closed set containing `start` contains, so it is the least such set. Each referrer list, and each list the report prints, names every registered document other than the seed's `start` exactly as often as its links name the URL. The run exits with failure iff some registered URL's request did not end in a 200. Every such URL is reported with its code and its registered referrers, and nothing else is reported. |
| Wrappers.MapUntilFailure | playlists.js:32-45 | A loop whose body may throw succeeds iff every element succeeds, and then yields each element's result in order. Otherwise it stops with the error of the first failing element, all earlier ones having succeeded. |
| Strings.IndexOf | playlists.js:52 | `indexOf` finds an occurrence iff the pattern occurs, and it returns the first one. |
| Strings.ReplaceFirst | playlists.js:52 | A string-pattern `replace` changes nothing when the pattern is absent. Otherwise it replaces the first occurrence and keeps the text before and after it. |
| Strings.ReplaceAllChar | playlists.js:52 | `replace(/a/g, b)` rewrites exactly the `a` positions and keeps the length. |
| Strings.ReplaceAllCharAppend | playlists.js:52 | The global one-character replacement works on a concatenation piece by piece. |
| Strings.DeleteChars | playlists.js:58 | Deleting a character class leaves only characters of the input outside the class. A single character is deleted iff it is in the class, and otherwise kept. |
| Strings.DeleteCharsAppend | playlists.js:58 | Deletion works on a concatenation piece by piece, so with the one-character case it keeps every other character in order. |
| Strings.DeleteCharsKeepsClean | playlists.js:58 | A string that has none of the class's characters is unchanged by the deletion. |
| Strings.LowerAscii | check-links.js:109 | The `/i` flag's folding lowers exactly the ASCII capitals, position by position. |
| Strings.Split | playlists.js:40 | `split` gives at least one piece, and no piece contains a separator. |
| Strings.JoinSplit | playlists.js:40 | Joining the pieces of `split(sep)` with `sep` gives back the string. |
| Strings.SplitJoin | playlists.js:40 | Splitting a join of separator-free pieces gives back the pieces. |
| Strings.RunsAreNonEmptyPieces | playlists.js:38 | The matches of `/[^\r\n]+/g` are exactly the non-empty pieces between line-break characters, in order. |
| Paths.Basename | playlists.js:52 | `path.basename` never contains a separator. |
| Paths.BasenameOfName | playlists.js:52 | A separator-free name followed by any number of separators is its own basename. So `""` and `"///"` give `""`. |
| Paths.BasenameOfPath | playlists.js:52 | The basename of `dir/name` followed by any number of trailing separators is `name`. |
| Paths.LastSegmentOfNamed | playlists.js:52 | The basename of `dir/name` is `name`. |
| Paths.Normalize | playlists.js:40 | The normal form is never empty, is absolute iff the path is, and keeps a trailing separator. |
| Paths.NormalizePlain | playlists.js:40 | A relative path made of plain segments (no empty, `.` or `..` segment) is its own normal form. |
| Paths.JoinPath | playlists.js:40 | A join is never empty, and it is absolute iff its first argument is. |
| Paths.JoinPathPlain | playlists.js:40 | `path.join` of plain segments is their `/`-join. |
| Playlists.Lookup | playlists.js:41 | `files[key]` is present iff the key is a file, and then it is that file. |
| Playlists.Collections | playlists.js:13-14 | A missing option object or a missing `collections` field means no collections. |
| Playlists.PlaylistKeyOfName | playlists.js:23-27 | `<collection>/playlists/<name>txt` matches the playlist pattern for every non-empty, separator-free name. |
| Playlists.PlaylistKeyName | playlists.js:23-27 | Every key matching the playlist pattern is `<collection>/playlists/<name>txt` for a non-empty, separator-free name. |
| Playlists.SelectPlaylists | playlists.js:23-28 | A key is selected iff it is a file key that matches `<collection>/playlists/[^/]+txt$` from position 0. The selection keeps the keys' order. |
| Playlists.PlaylistName | playlists.js:51-53 | A playlist name has no `_` and no separator. It is the basename, shortened by four characters when it contains `.txt`. |
| Playlists.PlaylistNameOfTxt | playlists.js:51-53 | For a file `<dir>/<stem>.txt` whose stem has no `.txt`, the name is the stem with every `_` turned into a space. |
| Playlists.RemoveTxtSuffix | playlists.js:52 | Removing the first `.txt` from `<stem>.txt` gives the stem when the stem has no `.txt`. |
| Playlists.PlaylistId | playlists.js:55-60 | An id contains no space, comma, period, hyphen or question mark. Every character of it comes from the name or is `_`. |
| Playlists.PlaylistIdAppend | playlists.js:55-60 | The id of a concatenation is the concatenation of the ids. |
| Playlists.PlaylistIdOfChar | playlists.js:57-58 | A space becomes `_`, a `,`, `.`, `-` or `?` is deleted, and any other character is kept. |
| Playlists.PlaylistIdOfClean | playlists.js:55-60 | A name with none of the rewritten characters is its own id. |
| Playlists.PlaylistIdIdempotent | playlists.js:55-60 | `playlistId(playlistId(x)) == playlistId(x)`. |
| Playlists.MatchLines | playlists.js:38 | `match` is `null` iff the contents have no non-empty line. Otherwise it gives the non-empty lines in order. |
| Playlists.LessonKey | playlists.js:40 | A lesson key is never empty, and it is absolute iff the collection name is. |
| Playlists.LessonKeyPlain | playlists.js:40 | For a plain collection name and a plain line, the lesson key is `<collection>/<line>`. |
| Playlists.BuildPlaylist | playlists.js:33-43 | One playlist file throws iff it has no non-empty line. |
| Playlists.BuildPlaylistSpec | playlists.js:33-42 | A playlist has the file's name and id, and one lesson per non-empty line in order. Lesson `i` is the lookup of line `i`'s key under the collection, absent when the key is missing. A failing file reports itself. |
| Playlists.PlaylistSources | playlists.js:26-37 | The loop visits the selected keys in order, each with its file's contents. |
| Playlists.BuildCollection | playlists.js:21-45 | A collection has one playlist per selected key, in key order, each built from its file. It fails iff some selected file fails, and then with the first failure. |
| Playlists.BuildCollectionFails | playlists.js:37-39 | A collection throws iff one of its playlist files has no non-empty line, and then it throws for the first such file. |
| Playlists.BuildEach | playlists.js:21-46 | Folding the collections into the map gives exactly the accumulated keys plus the collections, with each collection's playlists. It fails iff some collection fails. |
| Playlists.RunPlugin | playlists.js:13-47 | `metadata.playlists` is replaced by a map whose keys are exactly the configured collections, each holding its built playlists. The plugin fails iff some collection fails. |
| Playlists.RunPluginResets | playlists.js:17-18 | The outcome does not depend on the playlists already in the metadata, because the plugin starts from an empty object. |
| Playlists.RunPluginPlaylistCounts | playlists.js:21-45 | After a successful run, each configured collection holds one playlist per selected key. |

## Left out

- The browserSync server and `process.exit` (check-links.js:35-43, 86, 91) are process control. The console output (check-links.js:57, 69-80, 97) is I/O. `ExitFailure` and `Completed` stand for the exit and `cb()`.
- The node-spider scheduler is replaced by a FIFO queue. Its `concurrent: 5` limit and request headers (check-links.js:51-55) are not modelled. Every state change happens in one callback, so completions are modelled one at a time.
- The `spider.active.length` early return (check-links.js:62-67) works around a library race. The model finishes when the queue is empty.
- Cheerio's `doc.$` selection and `doc.resolve` are a foreign parser and URL resolver. The oracle returns the attribute values already resolved, in document order.
- `doc.url.search(start) === 0` treats `start` as a regular expression. The model uses a plain prefix test.
- `url in resources` also finds inherited object properties such as `constructor`. The model uses map membership, since resolved URLs are absolute.
- node-spider is not part of this model. Its `error` option is taken to receive the URL first and the error second, as check-links.js:56 names its parameters. If the library passes them the other way round, `failed` holds the error where the URL belongs, and the report at check-links.js:77 would throw. That is the behaviour LinkCheck.Report models for an unregistered URL, but LinkCheck.FinishAfterDrain relies on the stated order.
- LinkCheck.CheckLinks: referrer lists are stated as counts per document, not in order. The source appends referrers in completion order. The seed's own `start` referrer is stated only as the first entry of the start URL's list, because a document whose URL is the literal string `start` cannot be told apart from it.
- LinkCheck.Drain requires a finite universe of URLs that is closed under the oracle's links. A site with unboundedly many reachable URLs does not terminate in the source either.
- Metalsmith's `metadata()` plumbing and `done()` (playlists.js:17, 47) are framework plumbing. Contents are strings, so UTF-8 decoding (playlists.js:37) is not modelled. Paths are POSIX, so `path.sep` is always `/` (playlists.js:24).
- The collection name is used literally, not as a regular-expression fragment, in the playlist pattern (playlists.js:23-24).
- config.js is not part of this model. Its `playlistFolder` is the constant `"playlists"`.
- When a playlist file throws, the source leaves a partly filled `metadata.playlists` behind. The model returns only the error.
- The order of `Object.keys(files)` is the order of `Files.keys`. Integer-like keys, which JavaScript enumerates first, can never match the playlist pattern.
- `files[key]` (playlists.js:41) also finds inherited object properties. A lesson line `../constructor` joins to the key `constructor`, which JavaScript resolves to Object's constructor function. Playlists.Lookup uses map membership and gives no lesson for it.
- Playlists.PlaylistName: the contract states the absence of `_` and `/` and the length. The exact characters are stated only for files named `<stem>.txt` (PlaylistNameOfTxt), not for every basename.
- Paths.Normalize and Paths.JoinPath: for every input only the non-empty result, the leading separator and (for Normalize) a trailing separator are stated. The exact result is stated only for plain segments (NormalizePlain, JoinPathPlain), which is the case lesson lines are written in. The resolution of `.` and `..` is modelled but no contract states its outcome.

=== FILE: linkcheck.dfy ===
/** The link checker's crawl (check-links.js), as a sequential worklist.

    The spider's network layer and the HTML parser are replaced by an oracle
    `fetch` that tells, for every URL, what its request ends with. A response
    carries the `href` and `src` attribute values of the document already
    resolved against the document's URL. Every mutation of the crawl state in the
    source happens inside one callback, so completions are processed one at a
    time, in FIFO order. */
module LinkCheck {
  import opened Wrappers
  import opened Strings

  /** What a broken URL is reported with: a non-200 status or a transport error. */
  datatype Code = Status(status: int) | Transport(error: string)

  /** How the request for one URL ends. `contentType` is `None` when the
      response has no `content-type` header. */
  datatype Outcome =
    | Error(error: string)
    | Response(status: int, contentType: Option<string>, hrefs: seq<string>, srcs: seq<string>)

  /** An entry of the `failed` list: `{u: url, c: code}`. */
  datatype Failed = Failed(u: string, c: Code)

  /** The state of one crawl: the referrer registry `resources`, the spider's
      pending queue, the two counters and the `failed` list. */
  datatype Crawl = Crawl(
    resources: map<string, seq<string>>,
    queue: seq<string>,
    ok: nat,
    broken: nat,
    failed: seq<Failed>)

  /** The referrer recorded for the start URL. */
  const SeedReferrer: string := "start"

  const MailtoScheme: string := "mailto:"

  /** The alternatives of the content-type pattern `/text|javascript|css|json|xml/i`. */
  const TextLikeMarkers: seq<string> := ["text", "javascript", "css", "json", "xml"]

  /** The crawl invariant: every registered URL has either completed (counted in
      `ok` or `broken`) or is waiting in the queue, exactly once. */
  ghost predicate Inv(start: string, c: Crawl) {
    && c.ok + c.broken + |c.queue| == |c.resources|
    && (forall i :: 0 <= i < |c.queue| ==> c.queue[i] in c.resources)
    && Distinct(c.queue)
    && |c.failed| == c.broken
    && (forall i :: 0 <= i < |c.failed| ==> c.failed[i].u in c.resources)
    && (forall u :: u in c.resources ==> |c.resources[u]| > 0)
    && start in c.resources && c.resources[start][0] == SeedReferrer
  }

  /** `r` is a later state of the same crawl than `c`: no URL is forgotten,
      referrer lists and the `failed` list only grow at their ends, and the
      counters never decrease. */
  ghost predicate Grows(c: Crawl, r: Crawl) {
    && (forall k :: k in c.resources ==> k in r.resources && c.resources[k] <= r.resources[k])
    && c.failed <= r.failed
    && c.ok <= r.ok
    && c.broken <= r.broken
  }

  lemma GrowsTransitive(a: Crawl, b: Crawl, c: Crawl)
    requires Grows(a, b) && Grows(b, c)
    ensures Grows(a, c)
  {
    forall k | k in a.resources
      ensures k in c.resources && a.resources[k] <= c.resources[k]
    {
      assert a.resources[k] <= b.resources[k] <= c.resources[k];
    }
  }

  /** The seeded crawl: the start URL is registered with the referrer `start`
      and is the only URL queued. */
  function Seed(start: string): (c: Crawl)
    ensures Inv(start, c)
    ensures c.queue == [start] && c.ok == 0 && c.broken == 0 && c.failed == []
    ensures c.resources.Keys == {start} && c.resources[start] == [SeedReferrer]
  {
    Crawl(map[start := [SeedReferrer]], [start], 0, 0, [])
  }

  /** The part of a URL before its first `#`, or all of it when it has none. */
  function StripFragment(url: string): (r: string)
    ensures r <= url
    ensures '#' !in r
    ensures |r| < |url| ==> url[|r|] == '#'
  {
    if url == [] || url[0] == '#' then []
    else [url[0]] + StripFragment(url[1..])
  }

  lemma StripFragmentOfFragment(base: string, frag: string)
    requires '#' !in base
    ensures StripFragment(base + "#" + frag) == base
  {
    var u := base + "#" + frag;
    var r := StripFragment(u);
    assert u[|base|] == '#';
    assert forall i :: 0 <= i < |base| ==> u[i] == base[i] && base[i] in base;
    assert r == u[..|r|] && base == u[..|base|];
  }

  predicate IsMailto(url: string) {
    StartsWith(url, MailtoScheme)
  }

  /** `RegExp.prototype.test` converts a missing header to the string "undefined". */
  function HeaderText(contentType: Option<string>): string {
    match contentType
    case None => "undefined"
    case Some(t) => t
  }

  /** `/text|javascript|css|json|xml/i.test(contentType)`: one of the markers
      occurs in the header once ASCII capitals are lowered. A missing header is
      never text-like, since "undefined" contains none of the markers. */
  predicate TextLike(contentType: Option<string>)
    ensures contentType.None? ==> !TextLike(contentType)
  {
    UndefinedHasNoMarker();
    exists i :: 0 <= i < |TextLikeMarkers| && Contains(LowerAscii(HeaderText(contentType)), TextLikeMarkers[i])
  }

  lemma UndefinedHasNoMarker()
    ensures forall i :: 0 <= i < |TextLikeMarkers| ==> !Contains(LowerAscii("undefined"), TextLikeMarkers[i])
  {
    var u := "undefined";
    assert forall k :: 0 <= k < |u| ==> u[k] in "undefi";
    forall i | 0 <= i < |TextLikeMarkers| ensures !Contains(LowerAscii(u), TextLikeMarkers[i]) {
      var m := TextLikeMarkers[i];
      assert m[0] in "tjcx";
      AbsentFolded(u, m);
    }
  }

  /** A pattern that starts with a lower-case letter occurring in `s` in neither
      case does not occur in `s` once its capitals are lowered. */
  lemma AbsentFolded(s: string, pat: string)
    requires pat != [] && 'a' <= pat[0] <= 'z'
    requires forall k :: 0 <= k < |s| ==> s[k] != pat[0] && s[k] as int != pat[0] as int - 32
    ensures !Contains(LowerAscii(s), pat)
  {
    var l := LowerAscii(s);
    forall j | 0 <= j <= |l| ensures !OccursAt(l, pat, j) {
      if j + |pat| <= |l| {
        assert l[j..j + |pat|][0] == l[j];
        assert l[j] == LowerChar(s[j]);
      }
    }
  }

  /** Case does not matter to the content-type test. */
  lemma TextLikeIgnoresCase(t: string)
    ensures TextLike(Some(t)) <==> TextLike(Some(LowerAscii(t)))
  {
    var l := LowerAscii(t);
    assert LowerAscii(l) == l by {
      forall k | 0 <= k < |l| ensures LowerAscii(l)[k] == l[k] {
        assert l[k] == LowerChar(t[k]);
      }
    }
  }

  /** Links are extracted only from text-like documents under `start`; a
      document without a content type is never crawled. */
  predicate Crawlable(start: string, url: string, contentType: Option<string>)
    ensures contentType.None? ==> !Crawlable(start, url, contentType)
    ensures Crawlable(start, url, contentType) ==> TextLike(contentType)
    ensures Crawlable(start, url, contentType) ==> |start| <= |url| && url[..|start|] == start
  {
    TextLike(contentType) && StartsWith(url, start)
  }

  /** The registration shared by the `href` and `src` loops: a known URL gets
      `docUrl` appended to its referrers; a new one is queued with `[docUrl]`. */
  function Register(c: Crawl, url: string, docUrl: string): (r: Crawl)
    ensures r.resources.Keys == c.resources.Keys + {url}
    ensures url in c.resources ==> r.resources[url] == c.resources[url] + [docUrl] && r.queue == c.queue
    ensures url !in c.resources ==> r.resources[url] == [docUrl] && r.queue == c.queue + [url]
    ensures forall k :: k in c.resources && k != url ==> r.resources[k] == c.resources[k]
    ensures r.ok == c.ok && r.broken == c.broken && r.failed == c.failed
    ensures Grows(c, r)
  {
    if url in c.resources then
      c.(resources := c.resources[url := c.resources[url] + [docUrl]])
    else
      c.(queue := c.queue + [url], resources := c.resources[url := [docUrl]])
  }

  lemma RegisterKeepsInv(start: string, c: Crawl, url: string, docUrl: string)
    requires Inv(start, c)
    ensures Inv(start, Register(c, url, docUrl))
  {
    var r := Register(c, url, docUrl);
    if url !in c.resources {
      assert |r.resources.Keys| == |c.resources.Keys| + 1;
      assert forall i :: 0 <= i < |c.queue| ==> r.queue[i] == c.queue[i];
    }
    assert r.resources[start][0] == SeedReferrer;
  }

  /** The referrers recorded for `k` so far; none for an unregistered URL. */
  function Referrers(c: Crawl, k: string): seq<string> {
    if k in c.resources then c.resources[k] else []
  }

  /** `n` copies of `x`. */
  function Repeat(x: string, n: nat): (r: seq<string>)
    ensures |r| == n && forall i :: 0 <= i < n ==> r[i] == x
  {
    seq(n, _ => x)
  }

  lemma RepeatAdd(x: string, a: nat, b: nat)
    ensures Repeat(x, a) + Repeat(x, b) == Repeat(x, a + b)
  {
    assert forall i :: 0 <= i < a + b ==> (Repeat(x, a) + Repeat(x, b))[i] == x;
  }

  /** The URLs of `urls` that are neither in `seen` nor earlier in `urls`, in
      order: what a run of registrations appends to the queue. */
  function Fresh(seen: set<string>, urls: seq<string>): seq<string>
    decreases |urls|
  {
    if urls == [] then []
    else if urls[0] in seen then Fresh(seen, urls[1..])
    else [urls[0]] + Fresh(seen + {urls[0]}, urls[1..])
  }

  /** A run of registrations queues every new URL exactly once, and nothing else. */
  lemma FreshQueuedOnce(seen: set<string>, urls: seq<string>)
    ensures var f := Fresh(seen, urls);
            && (forall i :: 0 <= i < |f| ==> f[i] !in seen && f[i] in urls)
            && Distinct(f)
            && (forall u :: u in urls && u !in seen ==> u in f)
  {
    FreshNew(seen, urls);
    FreshDistinct(seen, urls);
    FreshCovers(seen, urls);
  }

  lemma {:induction false} FreshNew(seen: set<string>, urls: seq<string>)
    ensures forall u :: u in Fresh(seen, urls) ==> u !in seen && u in urls
    decreases |urls|
  {
    if urls != [] {
      var u := urls[0];
      if u in seen {
        FreshNew(seen, urls[1..]);
      } else {
        FreshNew(seen + {u}, urls[1..]);
      }
      assert forall x :: x in urls[1..] ==> x in urls;
    }
  }

  /** No URL occurs twice. */
  predicate Distinct(xs: seq<string>) {
    forall i, j :: 0 <= i < j < |xs| ==> xs[i] != xs[j]
  }

  lemma {:induction false} FreshDistinct(seen: set<string>, urls: seq<string>)
    ensures Distinct(Fresh(seen, urls))
    decreases |urls|
  {
    if urls != [] {
      var u := urls[0];
      if u in seen {
        FreshDistinct(seen, urls[1..]);
      } else {
        var rest := Fresh(seen + {u}, urls[1..]);
        FreshDistinct(seen + {u}, urls[1..]);
        FreshNew(seen + {u}, urls[1..]);
        var f := [u] + rest;
        assert forall i :: 0 < i < |f| ==> f[i] == rest[i - 1] && rest[i - 1] in rest;
      }
    }
  }

  lemma {:induction false} FreshCovers(seen: set<string>, urls: seq<string>)
    ensures forall u :: u in urls && u !in seen ==> u in Fresh(seen, urls)
    decreases |urls|
  {
    if urls != [] {
      var u := urls[0];
      assert forall x :: x in urls && x != u ==> x in urls[1..];
      if u in seen {
        FreshCovers(seen, urls[1..]);
      } else {
        FreshCovers(seen + {u}, urls[1..]);
      }
    }
  }

  /** Splitting the registered URLs splits the queued ones. */
  lemma {:induction false} FreshAppend(seen: set<string>, xs: seq<string>, ys: seq<string>)
    ensures Fresh(seen, xs + ys) == Fresh(seen, xs) + Fresh(seen + (set x | x in xs), ys)
    decreases |xs|
  {
    if xs == [] {
      assert xs + ys == ys;
      assert seen + (set x | x in xs) == seen;
    } else {
      var u := xs[0];
      assert (xs + ys)[0] == u && (xs + ys)[1..] == xs[1..] + ys;
      ElementsCons(xs);
      if u in seen {
        FreshAppend(seen, xs[1..], ys);
        assert seen + (set x | x in xs) == seen + (set x | x in xs[1..]);
      } else {
        FreshAppend(seen + {u}, xs[1..], ys);
        assert seen + {u} + (set x | x in xs[1..]) == seen + (set x | x in xs);
      }
    }
  }

  /** One registration in front of a run of registrations queues one more URL
      when it is new. */
  lemma FreshAfterRegister(seen: set<string>, queue: seq<string>, urls: seq<string>, queue': seq<string>, r: seq<string>)
    requires urls != []
    requires queue' == if urls[0] in seen then queue else queue + [urls[0]]
    requires r == queue' + Fresh(seen + {urls[0]}, urls[1..])
    ensures r == queue + Fresh(seen, urls)
  {
    var u := urls[0];
    if u in seen {
      FreshSkip(seen, urls);
    } else {
      FreshCons(seen, urls);
      AppendAssoc(queue, [u], Fresh(seen + {u}, urls[1..]));
    }
  }

  /** A URL already seen is not queued again. */
  lemma FreshSkip(seen: set<string>, urls: seq<string>)
    requires urls != [] && urls[0] in seen
    ensures Fresh(seen, urls) == Fresh(seen + {urls[0]}, urls[1..])
  {
    assert seen + {urls[0]} == seen;
  }

  /** A URL not yet seen is queued in front of what the rest of the run queues. */
  lemma FreshCons(seen: set<string>, urls: seq<string>)
    requires urls != [] && urls[0] !in seen
    ensures Fresh(seen, urls) == [urls[0]] + Fresh(seen + {urls[0]}, urls[1..])
  {
  }

  /** A single URL is queued iff it is not yet seen. */
  lemma FreshOne(seen: set<string>, u: string)
    ensures Fresh(seen, [u]) == if u in seen then [] else [u]
  {
    assert [u][1..] == [];
  }

  lemma AppendAssoc(a: seq<string>, b: seq<string>, c: seq<string>)
    ensures a + b + c == a + (b + c)
  {
  }

  /** Two runs of registrations queue what each of them finds new. */
  lemma FreshCompose(c: Crawl, h: Crawl, r: Crawl, xs: seq<string>, ys: seq<string>)
    requires h.resources.Keys == c.resources.Keys + set x | x in xs
    requires h.queue == c.queue + Fresh(c.resources.Keys, xs)
    requires r.queue == h.queue + Fresh(h.resources.Keys, ys)
    ensures r.queue == c.queue + Fresh(c.resources.Keys, xs + ys)
  {
    FreshAppend(c.resources.Keys, xs, ys);
  }

  /** Every registered URL's referrers are its earlier ones followed by `docUrl`
      once per occurrence of the URL in `urls`. */
  ghost predicate RecordsReferrers(c: Crawl, r: Crawl, docUrl: string, urls: seq<string>) {
    forall k :: k in r.resources ==> r.resources[k] == Referrers(c, k) + Repeat(docUrl, multiset(urls)[k])
  }

  /** One registration in front of a run of registrations records one more referrer. */
  lemma RecordsAfterRegister(c: Crawl, urls: seq<string>, docUrl: string, r: Crawl)
    requires urls != []
    requires RecordsReferrers(Register(c, urls[0], docUrl), r, docUrl, urls[1..])
    ensures RecordsReferrers(c, r, docUrl, urls)
  {
    var u := urls[0];
    var c' := Register(c, u, docUrl);
    assert multiset(urls) == multiset([u]) + multiset(urls[1..]) by {
      assert urls == [u] + urls[1..];
    }
    forall k | k in r.resources
      ensures r.resources[k] == Referrers(c, k) + Repeat(docUrl, multiset(urls)[k])
    {
      var n := multiset(urls[1..])[k];
      if k == u {
        assert Referrers(c', k) == Referrers(c, k) + [docUrl];
        RepeatAdd(docUrl, 1, n);
        assert Repeat(docUrl, 1) == [docUrl];
        assert Referrers(c, k) + [docUrl] + Repeat(docUrl, n) == Referrers(c, k) + ([docUrl] + Repeat(docUrl, n));
      } else {
        assert Referrers(c', k) == Referrers(c, k);
      }
    }
  }

  /** Two runs of registrations by the same document compose. */
  lemma RecordsCompose(c: Crawl, h: Crawl, r: Crawl, docUrl: string, xs: seq<string>, ys: seq<string>)
    requires h.resources.Keys == c.resources.Keys + set x | x in xs
    requires RecordsReferrers(c, h, docUrl, xs) && RecordsReferrers(h, r, docUrl, ys)
    ensures RecordsReferrers(c, r, docUrl, xs + ys)
  {
    forall k | k in r.resources
      ensures r.resources[k] == Referrers(c, k) + Repeat(docUrl, multiset(xs + ys)[k])
    {
      var m := multiset(xs)[k];
      var n := multiset(ys)[k];
      assert multiset(xs + ys)[k] == m + n;
      RepeatAdd(docUrl, m, n);
      if k in h.resources {
        assert Referrers(h, k) == Referrers(c, k) + Repeat(docUrl, m);
      } else {
        assert k !in xs && k !in c.resources;
        assert m == 0;
        assert Referrers(h, k) == Referrers(c, k) + Repeat(docUrl, m);
      }
    }
  }

  /** The URLs the `href` loop registers, in document order: every value cut at
      its first `#`, `mailto:` links left out. */
  function HrefUrls(hrefs: seq<string>): (r: seq<string>)
    ensures |r| <= |hrefs|
    ensures forall i :: 0 <= i < |r| ==> '#' !in r[i] && !IsMailto(r[i])
  {
    if hrefs == [] then []
    else
      var url := StripFragment(hrefs[0]);
      var rest := HrefUrls(hrefs[1..]);
      if IsMailto(url) then rest else [url] + rest
  }

  /** The `href` loop registers exactly the cut, non-`mailto:` values. */
  lemma {:induction false} HrefUrlsMembers(hrefs: seq<string>)
    ensures forall u :: u in HrefUrls(hrefs) <==>
              exists i :: 0 <= i < |hrefs| && u == StripFragment(hrefs[i]) && !IsMailto(StripFragment(hrefs[i]))
  {
    if hrefs != [] {
      HrefUrlsMembers(hrefs[1..]);
      assert forall i :: 1 <= i < |hrefs| ==> hrefs[i] == hrefs[1..][i - 1];
    }
  }

  /** One `href` value yields its fragment-free URL, or nothing for `mailto:`. */
  lemma HrefUrlsOne(href: string)
    ensures HrefUrls([href]) == if IsMailto(StripFragment(href)) then [] else [StripFragment(href)]
  {
    var hs: seq<string> := [href];
    assert hs[1..] == [];
  }

  /** The values are handled one by one, in document order: the URLs of two runs
      of values are those of each run, concatenated, repeats kept. */
  lemma {:induction false} HrefUrlsAppend(a: seq<string>, b: seq<string>)
    ensures HrefUrls(a + b) == HrefUrls(a) + HrefUrls(b)
  {
    if a == [] {
      assert a + b == b;
    } else {
      assert (a + b)[1..] == a[1..] + b;
      HrefUrlsAppend(a[1..], b);
    }
  }

  /** One `href` value: cut at the first `#`, dropped if it is a `mailto:` link,
      and otherwise registered. */
  function RegisterHref(c: Crawl, href: string, docUrl: string): (r: Crawl)
    ensures r.resources.Keys == c.resources.Keys + set u | u in HrefUrls([href])
    ensures RecordsReferrers(c, r, docUrl, HrefUrls([href]))
    ensures r.queue == c.queue + Fresh(c.resources.Keys, HrefUrls([href]))
    ensures r.ok == c.ok && r.broken == c.broken && r.failed == c.failed
    ensures Grows(c, r)
  {
    var url := StripFragment(href);
    assert [href][1..] == [];
    if IsMailto(url) then
      assert HrefUrls([href]) == [];
      c
    else
      assert HrefUrls([href]) == [url];
      assert RecordsReferrers(Register(c, url, docUrl), Register(c, url, docUrl), docUrl, [url][1..]);
      RecordsAfterRegister(c, [url], docUrl, Register(c, url, docUrl));
      FreshOne(c.resources.Keys, url);
      Register(c, url, docUrl)
  }

  /** The URLs the `href` loop registers, as a set. */
  function HrefTargets(hrefs: seq<string>): set<string> {
    set u | u in HrefUrls(hrefs)
  }

  /** The `href` loop, in document order. */
  function RegisterHrefs(c: Crawl, hrefs: seq<string>, docUrl: string): (r: Crawl)
    ensures r.resources.Keys == c.resources.Keys + HrefTargets(hrefs)
    ensures RecordsReferrers(c, r, docUrl, HrefUrls(hrefs))
    ensures r.queue == c.queue + Fresh(c.resources.Keys, HrefUrls(hrefs))
    ensures r.ok == c.ok && r.broken == c.broken && r.failed == c.failed
    ensures Grows(c, r)
    decreases |hrefs|
  {
    if hrefs == [] then
      assert RecordsReferrers(c, c, docUrl, []);
      c
    else
      var c' := RegisterHref(c, hrefs[0], docUrl);
      var r := RegisterHrefs(c', hrefs[1..], docUrl);
      GrowsTransitive(c, c', r);
      HrefStep(c, c', hrefs, docUrl, r);
      HrefStepQueue(c, c', hrefs, docUrl, r);
      r
  }

  /** The first `href` value followed by the rest of the loop accounts for all
      the loop's targets and referrers. */
  lemma HrefStep(c: Crawl, c': Crawl, hrefs: seq<string>, docUrl: string, r: Crawl)
    requires hrefs != []
    requires var url := StripFragment(hrefs[0]);
             c' == if IsMailto(url) then c else Register(c, url, docUrl)
    requires r.resources.Keys == c'.resources.Keys + HrefTargets(hrefs[1..])
    requires RecordsReferrers(c', r, docUrl, HrefUrls(hrefs[1..]))
    ensures r.resources.Keys == c.resources.Keys + HrefTargets(hrefs)
    ensures RecordsReferrers(c, r, docUrl, HrefUrls(hrefs))
  {
    var url := StripFragment(hrefs[0]);
    if IsMailto(url) {
      HrefSkipped(hrefs);
    } else {
      HrefKept(hrefs);
      var urls := HrefUrls(hrefs);
      RecordsAfterRegister(c, urls, docUrl, r);
    }
  }

  /** The first `href` value followed by the rest of the loop queues what the
      loop finds new. */
  lemma HrefStepQueue(c: Crawl, c': Crawl, hrefs: seq<string>, docUrl: string, r: Crawl)
    requires hrefs != []
    requires var url := StripFragment(hrefs[0]);
             c' == if IsMailto(url) then c else Register(c, url, docUrl)
    requires r.queue == c'.queue + Fresh(c'.resources.Keys, HrefUrls(hrefs[1..]))
    ensures r.queue == c.queue + Fresh(c.resources.Keys, HrefUrls(hrefs))
  {
    var url := StripFragment(hrefs[0]);
    if IsMailto(url) {
      HrefSkipped(hrefs);
    } else {
      HrefKept(hrefs);
      FreshAfterRegister(c.resources.Keys, c.queue, HrefUrls(hrefs), c'.queue, r.queue);
    }
  }

  /** A leading `mailto:` value contributes nothing to the loop's URLs. */
  lemma HrefSkipped(hrefs: seq<string>)
    requires hrefs != [] && IsMailto(StripFragment(hrefs[0]))
    ensures HrefUrls(hrefs) == HrefUrls(hrefs[1..])
    ensures HrefTargets(hrefs) == HrefTargets(hrefs[1..])
  {
  }

  /** A leading value that is not `mailto:` is the first of the loop's URLs. */
  lemma HrefKept(hrefs: seq<string>)
    requires hrefs != [] && !IsMailto(StripFragment(hrefs[0]))
    ensures var urls := HrefUrls(hrefs);
            urls != [] && urls[0] == StripFragment(hrefs[0]) && urls[1..] == HrefUrls(hrefs[1..])
    ensures HrefTargets(hrefs) == {StripFragment(hrefs[0])} + HrefTargets(hrefs[1..])
  {
    var urls := HrefUrls(hrefs);
    assert urls == [StripFragment(hrefs[0])] + HrefUrls(hrefs[1..]);
    ElementsCons(urls);
  }

  /** The `src` loop, in document order: every value registered as it is. */
  function RegisterSrcs(c: Crawl, srcs: seq<string>, docUrl: string): (r: Crawl)
    ensures r.resources.Keys == c.resources.Keys + set s | s in srcs
    ensures RecordsReferrers(c, r, docUrl, srcs)
    ensures r.queue == c.queue + Fresh(c.resources.Keys, srcs)
    ensures r.ok == c.ok && r.broken == c.broken && r.failed == c.failed
    ensures Grows(c, r)
    decreases |srcs|
  {
    if srcs == [] then
      assert RecordsReferrers(c, c, docUrl, []);
      c
    else
      var c' := Register(c, srcs[0], docUrl);
      ElementsCons(srcs);
      var r := RegisterSrcs(c', srcs[1..], docUrl);
      GrowsTransitive(c, c', r);
      RecordsAfterRegister(c, srcs, docUrl, r);
      FreshAfterRegister(c.resources.Keys, c.queue, srcs, c'.queue, r.queue);
      r
  }

  lemma {:induction false} RegisterHrefsKeepsInv(start: string, c: Crawl, hrefs: seq<string>, docUrl: string)
    requires Inv(start, c)
    ensures Inv(start, RegisterHrefs(c, hrefs, docUrl))
    decreases |hrefs|
  {
    if hrefs != [] {
      var url := StripFragment(hrefs[0]);
      if !IsMailto(url) {
        RegisterKeepsInv(start, c, url, docUrl);
      }
      RegisterHrefsKeepsInv(start, RegisterHref(c, hrefs[0], docUrl), hrefs[1..], docUrl);
    }
  }

  lemma {:induction false} RegisterSrcsKeepsInv(start: string, c: Crawl, srcs: seq<string>, docUrl: string)
    requires Inv(start, c)
    ensures Inv(start, RegisterSrcs(c, srcs, docUrl))
    decreases |srcs|
  {
    if srcs != [] {
      RegisterKeepsInv(start, c, srcs[0], docUrl);
      RegisterSrcsKeepsInv(start, Register(c, srcs[0], docUrl), srcs[1..], docUrl);
    }
  }

  /** Two `href` values that differ only in their fragment name one entry and
      cause one fetch; the document is recorded as a referrer twice. */
  lemma HrefFragmentsShareEntry(c: Crawl, base: string, x: string, y: string, docUrl: string)
    requires '#' !in base && !IsMailto(base) && base !in c.resources
    ensures var r := RegisterHrefs(c, [base + "#" + x, base + "#" + y], docUrl);
            r.resources.Keys == c.resources.Keys + {base} &&
            r.queue == c.queue + [base] && r.resources[base] == [docUrl, docUrl]
  {
    var hs := [base + "#" + x, base + "#" + y];
    StripFragmentOfFragment(base, x);
    StripFragmentOfFragment(base, y);
    var c1 := RegisterHref(c, hs[0], docUrl);
    assert c1 == Register(c, base, docUrl);
    var c2 := RegisterHref(c1, hs[1], docUrl);
    assert c2 == Register(c1, base, docUrl);
    assert hs[1..][1..] == [];
    assert RegisterHrefs(c, hs, docUrl) == RegisterHrefs(c1, hs[1..], docUrl);
    assert RegisterHrefs(c1, hs[1..], docUrl) == RegisterHrefs(c2, [], docUrl);
  }

  /** `src` values keep their fragment: two that differ only there are two
      entries and two fetches. */
  lemma SrcFragmentsAreSeparate(c: Crawl, base: string, x: string, y: string, docUrl: string)
    requires x != y
    requires base + "#" + x !in c.resources && base + "#" + y !in c.resources
    ensures var r := RegisterSrcs(c, [base + "#" + x, base + "#" + y], docUrl);
            r.queue == c.queue + [base + "#" + x, base + "#" + y] &&
            r.resources[base + "#" + x] == [docUrl] && r.resources[base + "#" + y] == [docUrl]
  {
    var u := base + "#" + x;
    var v := base + "#" + y;
    assert u != v by {
      assert u[|base| + 1..] == x && v[|base| + 1..] == y;
    }
    TwoNewSrcs(c, u, v, docUrl);
  }

  /** Two distinct new `src` values are both registered, each with the document as
      its only referrer, and queued in order. */
  lemma TwoNewSrcs(c: Crawl, u: string, v: string, docUrl: string)
    requires u != v && u !in c.resources && v !in c.resources
    ensures var r := RegisterSrcs(c, [u, v], docUrl);
            r.queue == c.queue + [u, v] && r.resources[u] == [docUrl] && r.resources[v] == [docUrl]
  {
    FreshTwo(c.resources.Keys, u, v);
    assert multiset([u, v])[u] == 1 && multiset([u, v])[v] == 1;
    assert Repeat(docUrl, 1) == [docUrl];
  }

  lemma FreshTwo(seen: set<string>, u: string, v: string)
    requires u != v && u !in seen && v !in seen
    ensures Fresh(seen, [u, v]) == [u, v]
  {
    FreshCons(seen, [u, v]);
    assert [u, v][1..] == [v];
    FreshOne(seen + {u}, v);
  }

  /** An `href` that resolves to a `mailto:` link leaves the crawl untouched. */
  lemma MailtoHrefIgnored(c: Crawl, href: string, docUrl: string)
    requires IsMailto(StripFragment(href))
    ensures RegisterHref(c, href, docUrl) == c
  {
  }

  /** A `src` that is a `mailto:` link is registered and queued like any other. */
  lemma MailtoSrcRegistered(c: Crawl, src: string, docUrl: string)
    requires IsMailto(src) && src !in c.resources
    ensures RegisterSrcs(c, [src], docUrl).queue == c.queue + [src]
    ensures RegisterSrcs(c, [src], docUrl).resources[src] == [docUrl]
  {
    assert [src][1..] == [];
  }

  /** The code a broken URL is reported with. */
  function CodeOf(o: Outcome): Code {
    match o
    case Error(e) => Transport(e)
    case Response(status, _, _, _) => Status(status)
  }

  predicate Healthy(o: Outcome) {
    o.Response? && o.status == 200
  }

  /** The status check of `reqDone` and the `error` callback: exactly one
      counter goes up, and a broken URL is recorded in `failed`. */
  function Tally(c: Crawl, url: string, o: Outcome): (r: Crawl)
    ensures r.ok + r.broken == c.ok + c.broken + 1
    ensures r.ok == c.ok + 1 <==> Healthy(o)
    ensures r.broken == c.broken + 1 <==> !Healthy(o)
    ensures !Healthy(o) ==> r.failed == c.failed + [Failed(url, CodeOf(o))]
    ensures Healthy(o) ==> r.failed == c.failed
    ensures r.resources == c.resources && r.queue == c.queue
  {
    if Healthy(o) then c.(ok := c.ok + 1)
    else c.(broken := c.broken + 1, failed := c.failed + [Failed(url, CodeOf(o))])
  }

  /** The URLs completing `url` with `o` registers, in order and with repeats:
      the `href` targets, then the `src` values, of a crawlable document. */
  function Links(start: string, url: string, o: Outcome): seq<string> {
    if o.Response? && Crawlable(start, url, o.contentType) then HrefUrls(o.hrefs) + o.srcs else []
  }

  /** The URLs completing `url` with `o` registers, as a set. */
  function Targets(start: string, url: string, o: Outcome): set<string> {
    set u | u in Links(start, url, o)
  }

  /** The link registration of one crawlable document: its `href` values, then
      its `src` values. */
  function RegisterLinks(c: Crawl, hrefs: seq<string>, srcs: seq<string>, docUrl: string): (r: Crawl)
    ensures r.resources.Keys == c.resources.Keys + set u | u in HrefUrls(hrefs) + srcs
    ensures RecordsReferrers(c, r, docUrl, HrefUrls(hrefs) + srcs)
    ensures r.queue == c.queue + Fresh(c.resources.Keys, HrefUrls(hrefs) + srcs)
    ensures r.ok == c.ok && r.broken == c.broken && r.failed == c.failed
    ensures Grows(c, r)
  {
    var h := RegisterHrefs(c, hrefs, docUrl);
    var r := RegisterSrcs(h, srcs, docUrl);
    RunsCompose(c, h, r, docUrl, HrefUrls(hrefs), srcs);
    r
  }

  /** Two runs of registrations by the same document make one run over both lists. */
  lemma RunsCompose(c: Crawl, h: Crawl, r: Crawl, docUrl: string, xs: seq<string>, ys: seq<string>)
    requires h.resources.Keys == c.resources.Keys + set x | x in xs
    requires r.resources.Keys == h.resources.Keys + set y | y in ys
    requires RecordsReferrers(c, h, docUrl, xs) && RecordsReferrers(h, r, docUrl, ys)
    requires h.queue == c.queue + Fresh(c.resources.Keys, xs)
    requires r.queue == h.queue + Fresh(h.resources.Keys, ys)
    requires Grows(c, h) && Grows(h, r)
    ensures r.resources.Keys == c.resources.Keys + set u | u in xs + ys
    ensures RecordsReferrers(c, r, docUrl, xs + ys)
    ensures r.queue == c.queue + Fresh(c.resources.Keys, xs + ys)
    ensures Grows(c, r)
  {
    GrowsTransitive(c, h, r);
    RecordsCompose(c, h, r, docUrl, xs, ys);
    FreshCompose(c, h, r, xs, ys);
    ElementsAppend(xs, ys);
  }

  lemma SameReferrers(c: Crawl, t: Crawl, r: Crawl, docUrl: string, urls: seq<string>)
    requires t.resources == c.resources
    requires RecordsReferrers(t, r, docUrl, urls)
    ensures RecordsReferrers(c, r, docUrl, urls)
  {
    assert forall k :: Referrers(t, k) == Referrers(c, k);
  }

  /** One completion: take the head of the queue, tally its outcome and, for a
      crawlable document, register its links. */
  function Step(start: string, fetch: string -> Outcome, c: Crawl): (r: Crawl)
    requires c.queue != []
    ensures r.ok == c.ok + (if Healthy(fetch(c.queue[0])) then 1 else 0)
    ensures r.broken == c.broken + (if Healthy(fetch(c.queue[0])) then 0 else 1)
    ensures r.failed == c.failed + (if Healthy(fetch(c.queue[0])) then [] else [Failed(c.queue[0], CodeOf(fetch(c.queue[0])))])
    ensures r.resources.Keys == c.resources.Keys + Targets(start, c.queue[0], fetch(c.queue[0]))
    ensures RecordsReferrers(c, r, c.queue[0], Links(start, c.queue[0], fetch(c.queue[0])))
    ensures Grows(c, r)
    ensures !(fetch(c.queue[0]).Response? && Crawlable(start, c.queue[0], fetch(c.queue[0]).contentType)) ==>
              r.resources == c.resources && r.queue == c.queue[1..]
    ensures r.queue == c.queue[1..] + Fresh(c.resources.Keys, Links(start, c.queue[0], fetch(c.queue[0])))
  {
    var url := c.queue[0];
    var o := fetch(url);
    var t := Tally(c.(queue := c.queue[1..]), url, o);
    if o.Response? && Crawlable(start, url, o.contentType) then
      var r := RegisterLinks(t, o.hrefs, o.srcs, url);
      assert Links(start, url, o) == HrefUrls(o.hrefs) + o.srcs;
      GrowsTransitive(c, t, r);
      SameReferrers(c, t, r, url, Links(start, url, o));
      r
    else
      assert Links(start, url, o) == [];
      assert RecordsReferrers(c, t, url, []);
      t
  }

  /** A completion leaves the referrers of every URL the document does not link
      to untouched, and gives a linked URL one more referrer per link. */
  lemma StepReferrers(start: string, fetch: string -> Outcome, c: Crawl, k: string)
    requires c.queue != [] && k in c.resources
    ensures var r := Step(start, fetch, c);
            var links := Links(start, c.queue[0], fetch(c.queue[0]));
            && (k !in links ==> r.resources[k] == c.resources[k])
            && (k in links ==> c.resources[k] + [c.queue[0]] <= r.resources[k])
  {
    var r := Step(start, fetch, c);
    RecordedReferrers(c, r, c.queue[0], Links(start, c.queue[0], fetch(c.queue[0])), k);
  }

  /** Recorded referrers leave an unlinked URL's list alone and extend a linked
      one's by the document. */
  lemma RecordedReferrers(c: Crawl, r: Crawl, docUrl: string, urls: seq<string>, k: string)
    requires RecordsReferrers(c, r, docUrl, urls)
    requires k in c.resources && k in r.resources
    ensures k !in urls ==> r.resources[k] == c.resources[k]
    ensures k in urls ==> c.resources[k] + [docUrl] <= r.resources[k]
  {
    var n := multiset(urls)[k];
    assert r.resources[k] == c.resources[k] + Repeat(docUrl, n);
    if k !in urls {
      assert n == 0;
      assert c.resources[k] + Repeat(docUrl, 0) == c.resources[k];
    } else {
      assert n >= 1;
      assert Repeat(docUrl, n)[0] == docUrl;
    }
  }

  lemma StepKeepsInv(start: string, fetch: string -> Outcome, c: Crawl)
    requires Inv(start, c) && c.queue != []
    ensures Inv(start, Step(start, fetch, c))
  {
    var url := c.queue[0];
    var o := fetch(url);
    var d := c.(queue := c.queue[1..]);
    var t := Tally(d, url, o);
    assert url in c.resources;
    assert forall i :: 0 <= i < |d.queue| ==> d.queue[i] == c.queue[i + 1];
    assert Inv(start, t);
    if o.Response? && Crawlable(start, url, o.contentType) {
      RegisterHrefsKeepsInv(start, t, o.hrefs, url);
      RegisterSrcsKeepsInv(start, RegisterHrefs(t, o.hrefs, url), o.srcs, url);
      assert Step(start, fetch, c) == RegisterSrcs(RegisterHrefs(t, o.hrefs, url), o.srcs, url);
    }
  }

  /** The crawl agrees with the oracle. Every `failed` entry is a URL whose request
      did not end in a 200, with that outcome's code. Every registered URL that is
      no longer queued has completed: it is healthy or recorded in `failed`, and
      every URL its document links to is registered. */
  ghost predicate Accounted(start: string, fetch: string -> Outcome, c: Crawl) {
    && (forall i :: 0 <= i < |c.failed| ==>
          !Healthy(fetch(c.failed[i].u)) && c.failed[i].c == CodeOf(fetch(c.failed[i].u)))
    && (forall u :: Done(c, u) ==>
          && (Healthy(fetch(u)) || Failed(u, CodeOf(fetch(u))) in c.failed)
          && Targets(start, u, fetch(u)) <= c.resources.Keys)
  }

  lemma SeedAccounted(start: string, fetch: string -> Outcome)
    ensures Accounted(start, fetch, Seed(start))
  {
    assert start in Seed(start).queue;
  }

  /** One completion moves the head of the queue into the completed part of the
      crawl with its outcome recorded, and queues every URL it registers. */
  lemma StepKeepsAccounted(start: string, fetch: string -> Outcome, c: Crawl)
    requires Inv(start, c) && c.queue != [] && Accounted(start, fetch, c)
    ensures Accounted(start, fetch, Step(start, fetch, c))
  {
    var url := c.queue[0];
    DistinctHead(c.queue);
    var r := Step(start, fetch, c);
    FailedStaysAccounted(fetch, url, c.failed, r.failed);
    CompletedStaysAccounted(start, fetch, c, r);
  }

  /** Appending the head's own outcome keeps `failed` in agreement with the oracle. */
  lemma FailedStaysAccounted(fetch: string -> Outcome, url: string, failed: seq<Failed>, failed': seq<Failed>)
    requires forall i :: 0 <= i < |failed| ==>
               !Healthy(fetch(failed[i].u)) && failed[i].c == CodeOf(fetch(failed[i].u))
    requires failed' == failed + (if Healthy(fetch(url)) then [] else [Failed(url, CodeOf(fetch(url)))])
    ensures forall i :: 0 <= i < |failed'| ==>
              !Healthy(fetch(failed'[i].u)) && failed'[i].c == CodeOf(fetch(failed'[i].u))
  {
    forall i | 0 <= i < |failed'|
      ensures !Healthy(fetch(failed'[i].u)) && failed'[i].c == CodeOf(fetch(failed'[i].u))
    {
      if i < |failed| {
        assert failed'[i] == failed[i];
      }
    }
  }

  /** After a completion, a registered URL that is not queued is the completed head
      or completed earlier, so its outcome is recorded and its links registered. */
  lemma CompletedStaysAccounted(start: string, fetch: string -> Outcome, c: Crawl, r: Crawl)
    requires c.queue != [] && c.queue[0] !in c.queue[1..]
    requires Accounted(start, fetch, c)
    requires var url := c.queue[0];
             && r.failed == c.failed + (if Healthy(fetch(url)) then [] else [Failed(url, CodeOf(fetch(url)))])
             && r.resources.Keys == c.resources.Keys + Targets(start, url, fetch(url))
             && r.queue == c.queue[1..] + Fresh(c.resources.Keys, Links(start, url, fetch(url)))
    ensures forall u :: Done(r, u) ==>
              && (Healthy(fetch(u)) || Failed(u, CodeOf(fetch(u))) in r.failed)
              && Targets(start, u, fetch(u)) <= r.resources.Keys
  {
    var url := c.queue[0];
    var links := Links(start, url, fetch(url));
    FreshCovers(c.resources.Keys, links);
    forall u | Done(r, u)
      ensures Healthy(fetch(u)) || Failed(u, CodeOf(fetch(u))) in r.failed
      ensures Targets(start, u, fetch(u)) <= r.resources.Keys
    {
      assert u !in Fresh(c.resources.Keys, links) && u !in c.queue[1..];
      assert u in c.resources;
      if u == url {
        assert !Healthy(fetch(url)) ==> r.failed[|c.failed|] == Failed(url, CodeOf(fetch(url)));
      } else {
        assert c.queue == [url] + c.queue[1..];
        assert u !in c.queue;
        if !Healthy(fetch(u)) {
          var i :| 0 <= i < |c.failed| && c.failed[i] == Failed(u, CodeOf(fetch(u)));
          assert r.failed[i] == c.failed[i];
        }
      }
    }
  }

  /** Every URL the oracle lets a crawlable document in `universe` link to is in
      `universe`: the reachable part of the site is finite. */
  ghost predicate Closed(start: string, fetch: string -> Outcome, universe: set<string>) {
    forall u {:trigger Targets(start, u, fetch(u))} :: u in universe ==> Targets(start, u, fetch(u)) <= universe
  }

  lemma SubsetCard(a: set<string>, b: set<string>)
    requires a <= b
    ensures |a| <= |b|
  {
    assert b == a + (b - a);
  }

  /** `v` has completed: it is registered and no longer queued. */
  predicate Done(c: Crawl, v: string) {
    v in c.resources && v !in c.queue
  }

  /** The referrers of every registered URL `u` name each URL `v` other than the
      seed's referrer exactly as often as `v`'s document links to `u` when `v` has
      completed, and not at all while `v` is unregistered or queued. */
  ghost predicate ReferrersCounted(start: string, fetch: string -> Outcome, c: Crawl) {
    forall u, v :: u in c.resources && v != SeedReferrer ==>
      multiset(c.resources[u])[v] == if Done(c, v) then multiset(Links(start, v, fetch(v)))[u] else 0
  }

  /** The crawl is grounded in the oracle: it registers only URLs that every set
      holding `start` and closed under the oracle's links contains, and its
      referrer lists are exactly the completed documents' links. */
  ghost predicate Grounded(start: string, fetch: string -> Outcome, c: Crawl) {
    && (forall U: set<string> {:trigger Closed(start, fetch, U)} :: start in U && Closed(start, fetch, U) ==> c.resources.Keys <= U)
    && ReferrersCounted(start, fetch, c)
  }

  lemma SeedGrounded(start: string, fetch: string -> Outcome)
    ensures Grounded(start, fetch, Seed(start))
  {
    var c := Seed(start);
    forall u, v | u in c.resources && v != SeedReferrer
      ensures multiset(c.resources[u])[v] == if Done(c, v) then multiset(Links(start, v, fetch(v)))[u] else 0
    {
      assert start in c.queue;
    }
  }

  lemma {:induction false} RepeatCount(x: string, n: nat, v: string)
    ensures multiset(Repeat(x, n))[v] == if v == x then n else 0
  {
    if n > 0 {
      RepeatAdd(x, n - 1, 1);
      assert Repeat(x, 1) == [x];
      RepeatCount(x, n - 1, v);
    } else {
      assert Repeat(x, 0) == [];
    }
  }

  lemma DistinctHead(q: seq<string>)
    requires q != [] && Distinct(q)
    ensures q[0] !in q[1..]
  {
    forall i | 0 <= i < |q[1..]| ensures q[1..][i] != q[0] {
      assert q[1..][i] == q[i + 1];
    }
  }

  /** One completion adds its head to the completed URLs and nothing else. */
  lemma DoneAfterStep(c: Crawl, r: Crawl, links: seq<string>, v: string)
    requires c.queue != [] && c.queue[0] !in c.queue[1..] && c.queue[0] in c.resources
    requires r.resources.Keys == c.resources.Keys + (set u | u in links)
    requires r.queue == c.queue[1..] + Fresh(c.resources.Keys, links)
    ensures Done(r, v) <==> v == c.queue[0] || Done(c, v)
  {
    FreshNew(c.resources.Keys, links);
    FreshCovers(c.resources.Keys, links);
    assert c.queue == [c.queue[0]] + c.queue[1..];
  }

  /** A URL registered by a completion lies in every closed set that holds the
      completed URL. */
  lemma ReachStaysGrounded(start: string, fetch: string -> Outcome, keys: set<string>, url: string, keys': set<string>)
    requires url in keys
    requires forall U: set<string> {:trigger Closed(start, fetch, U)} :: start in U && Closed(start, fetch, U) ==> keys <= U
    requires keys' == keys + Targets(start, url, fetch(url))
    ensures forall U: set<string> {:trigger Closed(start, fetch, U)} :: start in U && Closed(start, fetch, U) ==> keys' <= U
  {
    forall U: set<string> | start in U && Closed(start, fetch, U) ensures keys' <= U {
      assert url in U;
    }
  }

  /** A completion names its head once more per link to each URL, so the counts
      of the completed documents' links carry over. */
  lemma ReferrersStayCounted(start: string, fetch: string -> Outcome, c: Crawl, r: Crawl)
    requires c.queue != [] && c.queue[0] !in c.queue[1..] && c.queue[0] in c.resources
    requires Accounted(start, fetch, c) && ReferrersCounted(start, fetch, c)
    requires var url := c.queue[0];
             && r.resources.Keys == c.resources.Keys + Targets(start, url, fetch(url))
             && RecordsReferrers(c, r, url, Links(start, url, fetch(url)))
             && r.queue == c.queue[1..] + Fresh(c.resources.Keys, Links(start, url, fetch(url)))
    ensures ReferrersCounted(start, fetch, r)
  {
    var url := c.queue[0];
    var links := Links(start, url, fetch(url));
    forall v ensures Done(r, v) <==> v == url || Done(c, v) {
      DoneAfterStep(c, r, links, v);
    }
    assert !Done(c, url);
    CountsCarryOver(start, fetch, c, r, url, links);
  }

  lemma CountsCarryOver(start: string, fetch: string -> Outcome, c: Crawl, r: Crawl, url: string, links: seq<string>)
    requires links == Links(start, url, fetch(url)) && !Done(c, url)
    requires forall v :: Done(r, v) <==> v == url || Done(c, v)
    requires forall v :: Done(c, v) ==> Targets(start, v, fetch(v)) <= c.resources.Keys
    requires ReferrersCounted(start, fetch, c)
    requires forall k :: k in r.resources ==> r.resources[k] == Referrers(c, k) + Repeat(url, multiset(links)[k])
    ensures ReferrersCounted(start, fetch, r)
  {
    forall u, v | u in r.resources && v != SeedReferrer
      ensures multiset(r.resources[u])[v] == if Done(r, v) then multiset(Links(start, v, fetch(v)))[u] else 0
    {
      if u in c.resources {
        assert multiset(c.resources[u])[v] == if Done(c, v) then multiset(Links(start, v, fetch(v)))[u] else 0;
      } else if Done(c, v) {
        assert u !in Targets(start, v, fetch(v));
      }
      CountStaysExact(url, links, Referrers(c, u), r.resources[u], u, v, Done(c, v), Done(r, v),
                      Links(start, v, fetch(v)), u in c.resources);
    }
  }

  /** The count of `v` in one referrer list after a completion of `url` whose
      document's links are `links`. */
  lemma CountStaysExact(url: string, links: seq<string>, prev: seq<string>, now: seq<string>, u: string, v: string,
                        doneBefore: bool, doneAfter: bool, linksOfV: seq<string>, known: bool)
    requires now == prev + Repeat(url, multiset(links)[u])
    requires doneAfter <==> v == url || doneBefore
    requires v == url ==> !doneBefore
    requires known ==> multiset(prev)[v] == if doneBefore then multiset(linksOfV)[u] else 0
    requires !known ==> prev == [] && (doneBefore ==> u !in linksOfV)
    requires v == url ==> linksOfV == links
    ensures multiset(now)[v] == if doneAfter then multiset(linksOfV)[u] else 0
  {
    RepeatCount(url, multiset(links)[u], v);
    assert multiset(now) == multiset(prev) + multiset(Repeat(url, multiset(links)[u]));
  }

  lemma StepKeepsGrounded(start: string, fetch: string -> Outcome, c: Crawl)
    requires Inv(start, c) && c.queue != [] && Accounted(start, fetch, c) && Grounded(start, fetch, c)
    ensures Grounded(start, fetch, Step(start, fetch, c))
  {
    DistinctHead(c.queue);
    var r := Step(start, fetch, c);
    ReachStaysGrounded(start, fetch, c.resources.Keys, c.queue[0], r.resources.Keys);
    ReferrersStayCounted(start, fetch, c, r);
  }

  /** Each registered URL's referrers name every registered URL other than the
      seed's referrer once per link its document has to it, and nothing else. */
  ghost predicate ReferrersExact(start: string, fetch: string -> Outcome, c: Crawl) {
    forall u, v :: u in c.resources && v != SeedReferrer ==>
      multiset(c.resources[u])[v] == if v in c.resources then multiset(Links(start, v, fetch(v)))[u] else 0
  }

  /** The referrers printed for each reported URL are, in the same sense, exactly
      the registered documents' links to it. */
  ghost predicate ReportExact(start: string, fetch: string -> Outcome, c: Crawl, report: seq<ReportEntry>) {
    forall i, v :: 0 <= i < |report| && v != SeedReferrer ==>
      multiset(report[i].referrers)[v] ==
        if v in c.resources then multiset(Links(start, v, fetch(v)))[report[i].url] else 0
  }

  /** Once the queue is empty every registered URL has completed, so the
      referrers of each URL, and those the report prints for each broken one,
      are exactly the registered documents' links to it. */
  lemma DrainedGrounded(start: string, fetch: string -> Outcome, c: Crawl)
    requires Inv(start, c) && c.queue == [] && ReferrersCounted(start, fetch, c)
    ensures ReferrersExact(start, fetch, c)
    ensures ReportExact(start, fetch, c, Finish(c).report)
  {
    forall u, v | u in c.resources && v != SeedReferrer
      ensures multiset(c.resources[u])[v] == if v in c.resources then multiset(Links(start, v, fetch(v)))[u] else 0
    {
      assert Done(c, v) <==> v in c.resources;
    }
    FinishAfterDrain(start, c);
  }

  /** Process completions until the queue is empty. The measure
      `|universe| - (ok + broken)` equals `|universe - keys| + |queue|` under the
      invariant, and one completion lowers it by exactly one. */
  function Drain(start: string, fetch: string -> Outcome, universe: set<string>, c: Crawl): (r: Crawl)
    requires Inv(start, c)
    requires c.resources.Keys <= universe
    requires Closed(start, fetch, universe)
    requires Accounted(start, fetch, c)
    requires Grounded(start, fetch, c)
    ensures Inv(start, r)
    ensures Accounted(start, fetch, r)
    ensures Grounded(start, fetch, r)
    ensures r.queue == []
    ensures r.ok + r.broken == |r.resources|
    ensures r.resources.Keys <= universe
    ensures Grows(c, r)
    decreases |universe| - (c.ok + c.broken)
  {
    if c.queue == [] then c
    else
      SubsetCard(c.resources.Keys, universe);
      StepKeepsInv(start, fetch, c);
      StepKeepsAccounted(start, fetch, c);
      StepKeepsGrounded(start, fetch, c);
      var c' := Step(start, fetch, c);
      var r := Drain(start, fetch, universe, c');
      GrowsTransitive(c, c', r);
      r
  }

  /** A line of the summary: a broken URL, its code and all its referrers. */
  datatype ReportEntry = ReportEntry(url: string, code: Code, referrers: seq<string>)

  /** How the `done` callback ends. `ReportCrashed` is the TypeError of
      `resources[fail.u].forEach` on an unregistered URL; `InvariantViolated` is
      the failing `assert.equal`; `ExitFailure` is `process.exit(1)`;
      `Completed` is the call of `cb()`. */
  datatype Completion =
    | ReportCrashed
    | InvariantViolated
    | ExitFailure(report: seq<ReportEntry>)
    | Completed(report: seq<ReportEntry>)

  /** The per-failure part of the summary, in the order of `failed`. */
  function Report(failed: seq<Failed>, resources: map<string, seq<string>>): (r: Option<seq<ReportEntry>>)
    ensures r.Some? <==> forall i :: 0 <= i < |failed| ==> failed[i].u in resources
    ensures r.Some? ==> |r.value| == |failed|
    ensures r.Some? ==> forall i :: 0 <= i < |failed| ==>
              r.value[i] == ReportEntry(failed[i].u, failed[i].c, resources[failed[i].u])
  {
    if failed == [] then Some([])
    else if failed[0].u !in resources then None
    else match Report(failed[1..], resources)
      case None => None
      case Some(rest) =>
        Some([ReportEntry(failed[0].u, failed[0].c, resources[failed[0].u])] + rest)
  }

  /** The `done` callback: print the report, check the tally against the
      registry, then exit with failure if anything is broken. */
  function Finish(c: Crawl): (r: Completion)
    ensures r.ReportCrashed? <==> exists i :: 0 <= i < |c.failed| && c.failed[i].u !in c.resources
    ensures r.InvariantViolated? ==> c.ok + c.broken != |c.resources|
    ensures r.ExitFailure? || r.Completed? ==>
              c.ok + c.broken == |c.resources| && Report(c.failed, c.resources) == Some(r.report)
    ensures r.ExitFailure? ==> c.broken != 0
    ensures r.Completed? ==> c.broken == 0
  {
    match Report(c.failed, c.resources)
    case None => ReportCrashed
    case Some(report) =>
      if c.ok + c.broken != |c.resources| then InvariantViolated
      else if c.broken != 0 then ExitFailure(report)
      else Completed(report)
  }

  /** A crawl that ran to an empty queue never trips the report or the
      assertion, and fails exactly when some URL is broken. */
  lemma FinishAfterDrain(start: string, c: Crawl)
    requires Inv(start, c) && c.queue == []
    ensures Finish(c).ExitFailure? || Finish(c).Completed?
    ensures Finish(c).ExitFailure? <==> c.broken != 0
    ensures Finish(c).ExitFailure? <==> c.failed != []
    ensures |Finish(c).report| == c.broken
    ensures forall i :: 0 <= i < |c.failed| ==>
              Finish(c).report[i] == ReportEntry(c.failed[i].u, c.failed[i].c, c.resources[c.failed[i].u])
  {
  }

  /** A drained crawl that agrees with the oracle has recorded every registered
      URL whose request did not end in a 200, so `failed` is empty exactly when
      every registered URL is healthy. */
  lemma DrainedAccounted(start: string, fetch: string -> Outcome, c: Crawl)
    requires Inv(start, c) && c.queue == [] && Accounted(start, fetch, c)
    ensures forall u :: u in c.resources && !Healthy(fetch(u)) ==> Failed(u, CodeOf(fetch(u))) in c.failed
    ensures c.failed != [] <==> exists u :: u in c.resources && !Healthy(fetch(u))
  {
    if c.failed != [] {
      assert c.failed[0].u in c.resources && !Healthy(fetch(c.failed[0].u));
    }
  }

  /** What a drained crawl that agrees with the oracle and is grounded in it
      finishes with. */
  lemma DrainedCrawl(start: string, fetch: string -> Outcome, universe: set<string>, c: Crawl, r: (Crawl, Completion))
    requires Inv(start, c) && c.queue == [] && c.resources.Keys <= universe
    requires Accounted(start, fetch, c) && Grounded(start, fetch, c)
    requires r == (c, Finish(c))
    ensures r.0.queue == [] && r.0.ok + r.0.broken == |r.0.resources|
    ensures start in r.0.resources && r.0.resources[start][0] == SeedReferrer
    ensures r.1.ExitFailure? || r.1.Completed?
    ensures r.1.ExitFailure? <==> r.0.broken != 0
    ensures |r.1.report| == |r.0.failed| == r.0.broken
    ensures forall i :: 0 <= i < |r.0.failed| ==>
              r.0.failed[i].u in r.0.resources &&
              r.1.report[i] == ReportEntry(r.0.failed[i].u, r.0.failed[i].c, r.0.resources[r.0.failed[i].u])
    ensures r.0.resources.Keys <= universe
    ensures forall u {:trigger Targets(start, u, fetch(u))} :: u in r.0.resources ==> Targets(start, u, fetch(u)) <= r.0.resources.Keys
    ensures forall i :: 0 <= i < |r.0.failed| ==>
              !Healthy(fetch(r.0.failed[i].u)) && r.0.failed[i].c == CodeOf(fetch(r.0.failed[i].u))
    ensures forall u :: u in r.0.resources && !Healthy(fetch(u)) ==> Failed(u, CodeOf(fetch(u))) in r.0.failed
    ensures r.1.ExitFailure? <==> exists u :: u in r.0.resources && !Healthy(fetch(u))
    ensures forall U: set<string> {:trigger Closed(start, fetch, U)} :: start in U && Closed(start, fetch, U) ==> r.0.resources.Keys <= U
    ensures ReferrersExact(start, fetch, r.0)
    ensures ReportExact(start, fetch, r.0, r.1.report)
  {
    FinishAfterDrain(start, c);
    DrainedAccounted(start, fetch, c);
    DrainedGrounded(start, fetch, c);
  }

  /** The whole crawl from `start`: seed, drain, finish. */
  function CheckLinks(start: string, fetch: string -> Outcome, universe: set<string>): (r: (Crawl, Completion))
    requires start in universe
    requires Closed(start, fetch, universe)
    ensures Inv(start, r.0)
    ensures r.0.queue == [] && r.0.ok + r.0.broken == |r.0.resources|
    ensures start in r.0.resources && r.0.resources[start][0] == SeedReferrer
    ensures r.1.ExitFailure? || r.1.Completed?
    ensures r.1.ExitFailure? <==> r.0.broken != 0
    ensures |r.1.report| == |r.0.failed| == r.0.broken
    ensures forall i :: 0 <= i < |r.0.failed| ==>
              r.0.failed[i].u in r.0.resources &&
              r.1.report[i] == ReportEntry(r.0.failed[i].u, r.0.failed[i].c, r.0.resources[r.0.failed[i].u])
    ensures r.0.resources.Keys <= universe
    ensures forall u {:trigger Targets(start, u, fetch(u))} :: u in r.0.resources ==> Targets(start, u, fetch(u)) <= r.0.resources.Keys
    ensures forall i :: 0 <= i < |r.0.failed| ==>
              !Healthy(fetch(r.0.failed[i].u)) && r.0.failed[i].c == CodeOf(fetch(r.0.failed[i].u))
    ensures forall u :: u in r.0.resources && !Healthy(fetch(u)) ==> Failed(u, CodeOf(fetch(u))) in r.0.failed
    ensures r.1.ExitFailure? <==> exists u :: u in r.0.resources && !Healthy(fetch(u))
    ensures forall U: set<string> {:trigger Closed(start, fetch, U)} :: start in U && Closed(start, fetch, U) ==> r.0.resources.Keys <= U
    ensures ReferrersExact(start, fetch, r.0)
    ensures ReportExact(start, fetch, r.0, r.1.report)
  {
    SeedAccounted(start, fetch);
    SeedGrounded(start, fetch);
    var c := Drain(start, fetch, universe, Seed(start));
    DrainedCrawl(start, fetch, universe, c, (c, Finish(c)));
    (c, Finish(c))
  }
}

=== FILE: paths.dfy ===
/** The POSIX flavour of Node's `path.basename` and `path.join`, on `/`-separated strings. */
module Paths {
  import opened Strings

  const Sep: char := '/'

  /** `p` without its trailing separators. */
  function TrimTrailingSeps(p: string): (r: string)
    ensures r <= p
    ensures r == [] || r[|r| - 1] != Sep
    ensures forall i :: |r| <= i < |p| ==> p[i] == Sep
    decreases |p|
  {
    if p != [] && p[|p| - 1] == Sep then TrimTrailingSeps(p[..|p| - 1]) else p
  }

  /** The part of `p` after its last separator. */
  function LastSegment(p: string): (r: string)
    ensures Sep !in r
    ensures |r| <= |p| && r == p[|p| - |r|..]
    ensures |r| < |p| ==> p[|p| - |r| - 1] == Sep
    decreases |p|
  {
    if p == [] || p[|p| - 1] == Sep then []
    else LastSegment(p[..|p| - 1]) + [p[|p| - 1]]
  }

  /** `path.basename(p)`: trailing separators are ignored, then everything up to
      the last remaining separator is dropped. */
  function Basename(p: string): (r: string)
    ensures Sep !in r
  {
    LastSegment(TrimTrailingSeps(p))
  }

  /** The last segment of a path is its basename, and trailing separators do not
      change it. */
  lemma BasenameOfPath(dir: string, name: string, trailing: nat)
    requires name != [] && Sep !in name
    ensures Basename(dir + [Sep] + name + seq(trailing, _ => Sep)) == name
  {
    assert name[|name| - 1] in name;
    TrimSeps(dir + [Sep] + name, trailing);
    LastSegmentAfterSep(dir, name);
  }

  /** A path ending in a non-empty name is its own trimmed form, and the name is its basename. */
  lemma LastSegmentOfNamed(dir: string, name: string)
    requires name != [] && Sep !in name
    ensures Basename(dir + [Sep] + name) == name
  {
    var p := dir + [Sep] + name;
    assert name[|name| - 1] in name;
    assert p[|p| - 1] == name[|name| - 1];
    assert TrimTrailingSeps(p) == p;
    LastSegmentAfterSep(dir, name);
  }

  /** A name without a directory part is its own basename, whatever separators
      trail it; a path of separators only has the empty basename. */
  lemma BasenameOfName(name: string, trailing: nat)
    requires Sep !in name
    ensures Basename(name + seq(trailing, _ => Sep)) == name
  {
    if name == [] {
      AllSepsTrim(trailing);
      assert name + seq(trailing, _ => Sep) == seq(trailing, _ => Sep);
    } else {
      assert name[|name| - 1] in name;
      TrimSeps(name, trailing);
      LastSegmentOfFree(name);
    }
  }

  lemma {:induction false} AllSepsTrim(n: nat)
    ensures TrimTrailingSeps(seq(n, _ => Sep)) == []
    decreases n
  {
    if n > 0 {
      var p := seq(n, _ => Sep);
      assert p[|p| - 1] == Sep;
      assert p[..|p| - 1] == seq(n - 1, _ => Sep);
      AllSepsTrim(n - 1);
    }
  }

  lemma {:induction false} LastSegmentOfFree(name: string)
    requires Sep !in name
    ensures LastSegment(name) == name
    decreases |name|
  {
    if name != [] {
      var init := name[..|name| - 1];
      assert name[|name| - 1] in name;
      assert forall c :: c in init ==> c in name;
      LastSegmentOfFree(init);
      assert init + [name[|name| - 1]] == name;
    }
  }

  lemma {:induction false} TrimSeps(q: string, n: nat)
    requires q != [] && q[|q| - 1] != Sep
    ensures TrimTrailingSeps(q + seq(n, _ => Sep)) == q
    decreases n
  {
    var p := q + seq(n, _ => Sep);
    if n == 0 {
      assert p == q;
    } else {
      assert p[|p| - 1] == Sep;
      assert p[..|p| - 1] == q + seq(n - 1, _ => Sep);
      TrimSeps(q, n - 1);
    }
  }

  lemma {:induction false} LastSegmentAfterSep(dir: string, name: string)
    requires Sep !in name
    ensures LastSegment(dir + [Sep] + name) == name
    decreases |name|
  {
    var p := dir + [Sep] + name;
    if name == [] {
      assert p[|p| - 1] == Sep;
    } else {
      var init := name[..|name| - 1];
      assert p[..|p| - 1] == dir + [Sep] + init;
      assert name[|name| - 1] in name;
      assert forall c :: c in init ==> c in name;
      LastSegmentAfterSep(dir, init);
      assert init + [name[|name| - 1]] == name;
    }
  }

  /** Node's `normalizeString`: empty and `.` segments are skipped; `..` drops
      the last kept segment when there is one that is not itself `..`, and is
      otherwise kept for relative paths and dropped for absolute ones. */
  function Resolve(stack: seq<string>, segs: seq<string>, allowAboveRoot: bool): seq<string>
    decreases |segs|
  {
    if segs == [] then stack
    else
      var s := segs[0];
      if s == "" || s == "." then Resolve(stack, segs[1..], allowAboveRoot)
      else if s == ".." then
        if stack != [] && stack[|stack| - 1] != ".." then Resolve(stack[..|stack| - 1], segs[1..], allowAboveRoot)
        else if allowAboveRoot then Resolve(stack + [".."], segs[1..], allowAboveRoot)
        else Resolve(stack, segs[1..], allowAboveRoot)
      else Resolve(stack + [s], segs[1..], allowAboveRoot)
  }

  /** A segment `Resolve` keeps unchanged. */
  predicate PlainSegment(s: string) {
    s != "" && s != "." && s != ".." && Sep !in s
  }

  lemma {:induction false} ResolvePlain(stack: seq<string>, segs: seq<string>, allowAboveRoot: bool)
    requires forall i :: 0 <= i < |segs| ==> PlainSegment(segs[i])
    ensures Resolve(stack, segs, allowAboveRoot) == stack + segs
    decreases |segs|
  {
    if segs != [] {
      assert PlainSegment(segs[0]);
      ResolvePlain(stack + [segs[0]], segs[1..], allowAboveRoot);
      assert stack + [segs[0]] + segs[1..] == stack + segs;
    }
  }

  /** The segments `Resolve` keeps are non-empty and free of separators. */
  ghost predicate CleanSegments(segs: seq<string>) {
    forall i :: 0 <= i < |segs| ==> segs[i] != "" && NoneOf(segs[i], {Sep})
  }

  lemma {:induction false} ResolveClean(stack: seq<string>, segs: seq<string>, allowAboveRoot: bool)
    requires CleanSegments(stack)
    requires forall i :: 0 <= i < |segs| ==> NoneOf(segs[i], {Sep})
    ensures CleanSegments(Resolve(stack, segs, allowAboveRoot))
    decreases |segs|
  {
    if segs != [] {
      var s := segs[0];
      assert forall i :: 0 <= i < |segs[1..]| ==> segs[1..][i] == segs[i + 1];
      if s == "" || s == "." {
        ResolveClean(stack, segs[1..], allowAboveRoot);
      } else if s == ".." {
        if stack != [] && stack[|stack| - 1] != ".." {
          ResolveClean(stack[..|stack| - 1], segs[1..], allowAboveRoot);
        } else if allowAboveRoot {
          assert NoneOf("..", {Sep});
          ResolveClean(stack + [".."], segs[1..], allowAboveRoot);
        } else {
          ResolveClean(stack, segs[1..], allowAboveRoot);
        }
      } else {
        ResolveClean(stack + [s], segs[1..], allowAboveRoot);
      }
    }
  }

  /** The `/`-join of clean segments does not start with a separator. */
  lemma JoinCleanStart(segs: seq<string>)
    requires CleanSegments(segs) && Join(segs, [Sep]) != ""
    ensures Join(segs, [Sep])[0] != Sep
  {
    assert segs != [];
    JoinEnds(segs, [Sep]);
    assert segs[0] != "" && NoneOf(segs[0], {Sep});
    assert Join(segs, [Sep])[0] == segs[0][0];
  }

  /** `path.normalize(p)`. */
  function Normalize(p: string): (r: string)
    ensures r != ""
    ensures p != "" ==> (r[0] == Sep <==> p[0] == Sep)
    ensures p != "" && p[|p| - 1] == Sep ==> r[|r| - 1] == Sep
  {
    if p == "" then "."
    else
      var absolute := p[0] == Sep;
      var trailing := p[|p| - 1] == Sep;
      var stack := Resolve([], Split(p, {Sep}), !absolute);
      var body := Join(stack, [Sep]);
      ResolveClean([], Split(p, {Sep}), !absolute);
      if body == "" then
        if absolute then "/" else if trailing then "./" else "."
      else
        JoinCleanStart(stack);
        (if absolute then "/" else "") + body + (if trailing then "/" else "")
  }

  /** `path.join(...args)`: the non-empty arguments joined by `/`, then normalized. */
  function JoinPath(args: seq<string>): (r: string)
    ensures r != ""
    ensures args != [] && args[0] != "" ==> (r[0] == Sep <==> args[0][0] == Sep)
  {
    var joined := Join(NonEmpty(args), [Sep]);
    if joined == "" then "."
    else
      if args != [] && args[0] != "" then
        JoinedStart(args);
        Normalize(joined)
      else Normalize(joined)
  }

  /** The joined arguments begin with the first argument when it is non-empty. */
  lemma JoinedStart(args: seq<string>)
    requires args != [] && args[0] != ""
    ensures Join(NonEmpty(args), [Sep]) != "" && Join(NonEmpty(args), [Sep])[0] == args[0][0]
  {
    assert NonEmpty(args)[0] == args[0];
    JoinEnds(NonEmpty(args), [Sep]);
  }

  /** Joining begins with the first piece and ends with the last one. */
  lemma {:induction false} JoinEnds(parts: seq<string>, sep: string)
    requires |parts| >= 1
    ensures parts[0] <= Join(parts, sep)
    ensures EndsWith(Join(parts, sep), parts[|parts| - 1])
    decreases |parts|
  {
    if |parts| > 1 {
      JoinEnds(parts[1..], sep);
      var rest := Join(parts[1..], sep);
      assert Join(parts, sep) == parts[0] + sep + rest;
      var last := parts[|parts| - 1];
      assert last == parts[1..][|parts[1..]| - 1];
      assert Join(parts, sep)[|Join(parts, sep)| - |last|..] == rest[|rest| - |last|..];
    }
  }

  /** Joining two non-empty lists of pieces is joining their joins. */
  lemma {:induction false} JoinAppend(a: seq<string>, b: seq<string>, sep: string)
    requires |a| >= 1 && |b| >= 1
    ensures Join(a + b, sep) == Join(a, sep) + sep + Join(b, sep)
    decreases |a|
  {
    if |a| == 1 {
      assert (a + b)[1..] == b;
    } else {
      JoinAppend(a[1..], b, sep);
      assert (a + b)[1..] == a[1..] + b;
    }
  }

  lemma {:induction false} NonEmptyKeepsFull(parts: seq<string>)
    requires forall i :: 0 <= i < |parts| ==> parts[i] != ""
    ensures NonEmpty(parts) == parts
    decreases |parts|
  {
    if parts != [] {
      NonEmptyKeepsFull(parts[1..]);
    }
  }

  /** A relative path with no trailing separator whose segments resolve to
      themselves is its own normal form. */
  lemma NormalizeFixed(p: string)
    requires p != "" && p[0] != Sep && p[|p| - 1] != Sep
    requires Join(Resolve([], Split(p, {Sep}), true), [Sep]) == p
    ensures Normalize(p) == p
  {
  }

  lemma PlainSegmentsHaveNoSep(segs: seq<string>)
    requires forall i :: 0 <= i < |segs| ==> PlainSegment(segs[i])
    ensures forall i :: 0 <= i < |segs| ==> NoneOf(segs[i], {Sep})
  {
    forall i, k | 0 <= i < |segs| && 0 <= k < |segs[i]|
      ensures segs[i][k] != Sep
    {
      assert PlainSegment(segs[i]);
      assert segs[i][k] in segs[i];
    }
  }

  /** A relative path made of plain segments is its own normal form. */
  lemma NormalizePlain(segs: seq<string>)
    requires |segs| >= 1
    requires forall i :: 0 <= i < |segs| ==> PlainSegment(segs[i])
    ensures Normalize(Join(segs, [Sep])) == Join(segs, [Sep])
  {
    var p := Join(segs, [Sep]);
    PlainSegmentsHaveNoSep(segs);
    SplitJoin(segs, Sep);
    ResolvePlain([], segs, true);
    assert [] + segs == segs;
    JoinEnds(segs, [Sep]);
    var first := segs[0];
    var last := segs[|segs| - 1];
    assert PlainSegment(first) && PlainSegment(last);
    assert first[0] in first && last[|last| - 1] in last;
    assert p[0] == first[0];
    assert p[|p| - 1] == last[|last| - 1];
    NormalizeFixed(p);
  }

  /** `path.join` of plain relative segments is their `/`-join. */
  lemma JoinPathPlain(segs: seq<string>)
    requires |segs| >= 1
    requires forall i :: 0 <= i < |segs| ==> PlainSegment(segs[i])
    ensures JoinPath(segs) == Join(segs, [Sep])
  {
    NonEmptyKeepsFull(segs);
    NormalizePlain(segs);
  }
}

=== FILE: playlists.dfy ===
/** The Metalsmith plugin of playlists.js: for every configured collection it
    picks the playlist files `<collection>/playlists/<name>txt` and turns each
    non-empty line of such a file into a lookup of a lesson file. */
module Playlists {
  import opened Wrappers
  import opened Strings
  import Paths

  /** The folder holding a collection's playlist files. */
  const PlaylistFolder: string := "playlists"

  /** The characters `/[^\r\n]+/g` stops a line at. */
  const LineBreaks: set<char> := {'\r', '\n'}

  /** The characters `playlistId` deletes. */
  const IdDropped: set<char> := {',', '.', '-', '?'}

  /** A Metalsmith file; only its contents matter here. */
  datatype File = File(contents: string)

  /** Metalsmith's `files` object: its keys in enumeration order and its entries. */
  datatype Files = Files(keys: seq<string>, entries: map<string, File>)

  ghost predicate ValidFiles(files: Files) {
    && (forall i, j :: 0 <= i < j < |files.keys| ==> files.keys[i] != files.keys[j])
    && (forall k :: k in files.entries <==> k in files.keys)
  }

  /** `files[key]`, which is `undefined` for a missing key. */
  function Lookup(files: Files, key: string): (r: Option<File>)
    ensures r.Some? <==> key in files.entries
    ensures r.Some? ==> r.value == files.entries[key]
  {
    if key in files.entries then Some(files.entries[key]) else None
  }

  /** One playlist of `metadata.playlists[collection]`. */
  datatype Playlist = Playlist(name: string, id: string, lessons: seq<Option<File>>)

  /** A playlist file with no non-empty line makes the line match yield no array,
      and mapping over that absent result throws. */
  datatype PluginError = NoLessonLines(file: string)

  /** The plugin options: the optional list of collection folders. */
  datatype Options = Options(collections: Option<seq<string>>)

  /** The part of Metalsmith's global metadata the plugin writes. */
  datatype Metadata = Metadata(playlists: map<string, seq<Playlist>>)

  /** The configured collections: none when the options object or its
      `collections` field is missing. */
  function Collections(opts: Option<Options>): (r: seq<string>)
    ensures opts.Some? && opts.value.collections.Some? ==> r == opts.value.collections.value
    ensures opts.None? || opts.value.collections.None? ==> r == []
  {
    match opts
    case None => []
    case Some(o) =>
      match o.collections
      case None => []
      case Some(cs) => cs
  }

  /** `file.search(re) === 0` for `re` = `<collection>/playlists/[^/]+txt$`: the
      key starts with the collection's playlist folder and continues with at least
      one character and then `txt`, with no further separator. */
  predicate IsPlaylistKey(collection: string, key: string) {
    var prefix := PlaylistPrefix(collection);
    && StartsWith(key, prefix)
    && var rest := key[|prefix|..];
    && |rest| >= 4
    && EndsWith(rest, "txt")
    && Paths.Sep !in rest
  }

  /** `<collection>/playlists/`. */
  function PlaylistPrefix(collection: string): string {
    collection + [Paths.Sep] + PlaylistFolder + [Paths.Sep]
  }

  /** Every non-empty separator-free name followed by `txt` is a playlist key. */
  lemma PlaylistKeyOfName(collection: string, name: string)
    requires name != [] && Paths.Sep !in name
    ensures IsPlaylistKey(collection, PlaylistPrefix(collection) + name + "txt")
  {
    var prefix := PlaylistPrefix(collection);
    var key := prefix + name + "txt";
    assert key[..|prefix|] == prefix;
    var rest := key[|prefix|..];
    assert rest == name + "txt";
    assert rest[|rest| - 3..] == "txt";
    forall k | 0 <= k < |rest| ensures rest[k] != Paths.Sep {
      if k < |name| {
        assert rest[k] == name[k] && name[k] in name;
      }
    }
  }

  /** Every playlist key is a non-empty separator-free name followed by `txt`
      under the collection's playlist folder. */
  lemma PlaylistKeyName(collection: string, key: string)
    requires IsPlaylistKey(collection, key)
    ensures var prefix := PlaylistPrefix(collection);
            var name := key[|prefix|..|key| - 3];
            name != [] && Paths.Sep !in name && key == prefix + name + "txt"
  {
    var prefix := PlaylistPrefix(collection);
    var rest := key[|prefix|..];
    var name := key[|prefix|..|key| - 3];
    assert name == rest[..|rest| - 3];
    assert forall c :: c in name ==> c in rest;
    assert key == key[..|prefix|] + rest;
    assert rest == name + rest[|rest| - 3..];
  }

  /** `a` can be obtained from `b` by deleting elements. */
  predicate IsSubsequence(a: seq<string>, b: seq<string>)
    decreases |b|
  {
    a == [] || (b != [] && if a[0] == b[0] then IsSubsequence(a[1..], b[1..]) else IsSubsequence(a, b[1..]))
  }

  /** `Object.keys(files).filter(...)`: the playlist keys of `collection`, in key order. */
  function SelectPlaylists(collection: string, keys: seq<string>): (r: seq<string>)
    ensures forall k :: k in r <==> k in keys && IsPlaylistKey(collection, k)
    ensures IsSubsequence(r, keys)
    decreases |keys|
  {
    if keys == [] then []
    else
      var rest := SelectPlaylists(collection, keys[1..]);
      if IsPlaylistKey(collection, keys[0]) then [keys[0]] + rest else rest
  }

  /** `playlistName`: the basename with its first `.txt` removed and every `_`
      turned into a space. */
  function PlaylistName(filename: string): (r: string)
    ensures '_' !in r && Paths.Sep !in r
    ensures |r| == |Paths.Basename(filename)| - (if Contains(Paths.Basename(filename), ".txt") then 4 else 0)
  {
    var base := Paths.Basename(filename);
    var stem := ReplaceFirst(base, ".txt", "");
    var r := ReplaceAllChar(stem, '_', ' ');
    assert forall i :: 0 <= i < |r| ==> r[i] != '_' && r[i] != Paths.Sep by {
      forall i | 0 <= i < |r| ensures r[i] != '_' && r[i] != Paths.Sep {
        assert stem[i] in stem;
      }
    }
    r
  }

  /** A playlist file named `<stem>.txt` gets its stem, with spaces for `_`, as name. */
  lemma PlaylistNameOfTxt(dir: string, stem: string)
    requires Paths.Sep !in stem && !Contains(stem, ".txt")
    ensures PlaylistName(dir + [Paths.Sep] + stem + ".txt") == ReplaceAllChar(stem, '_', ' ')
  {
    var name := stem + ".txt";
    var f := dir + [Paths.Sep] + stem + ".txt";
    assert Paths.Basename(f) == name by {
      assert f == dir + [Paths.Sep] + name;
      assert name[|name| - 1] == 't';
      Paths.LastSegmentOfNamed(dir, name);
    }
    RemoveTxtSuffix(stem);
    assert PlaylistName(f) == ReplaceAllChar(ReplaceFirst(name, ".txt", ""), '_', ' ');
  }

  lemma RemoveTxtSuffix(stem: string)
    requires !Contains(stem, ".txt")
    ensures ReplaceFirst(stem + ".txt", ".txt", "") == stem
  {
    var name := stem + ".txt";
    FirstTxtIsSuffix(stem);
    assert name[..|stem|] + "" + name[|stem| + 4..] == stem;
  }

  /** `.txt` cannot overlap itself, so in `<stem>.txt` with no `.txt` in the stem
      the first occurrence is the suffix. */
  lemma FirstTxtIsSuffix(stem: string)
    requires !Contains(stem, ".txt")
    ensures IndexOf(stem + ".txt", ".txt") == Some(|stem|)
  {
    var name := stem + ".txt";
    assert OccursAt(name, ".txt", |stem|);
    forall j | 0 <= j < |stem| ensures !OccursAt(name, ".txt", j) {
      NoTxtBefore(stem, j);
    }
  }

  lemma NoTxtBefore(stem: string, j: nat)
    requires !Contains(stem, ".txt") && j < |stem|
    ensures !OccursAt(stem + ".txt", ".txt", j)
  {
    var name := stem + ".txt";
    if j + 4 <= |stem| {
      assert name[j..j + 4] == stem[j..j + 4];
      assert !OccursAt(stem, ".txt", j);
    } else {
      assert name[|stem|] == '.';
      var k := |stem| - j;
      assert 1 <= k <= 3;
      assert ".txt"[k] != '.';
      assert name[j..j + 4][k] == name[|stem|];
    }
  }

  /** `playlistId`: spaces become `_`; commas, periods, hyphens and question
      marks are deleted; everything else is kept. */
  function PlaylistId(name: string): (r: string)
    ensures ' ' !in r
    ensures forall c :: c in IdDropped ==> c !in r
    ensures forall c :: c in r ==> c in name || c == '_'
  {
    var underscored := ReplaceAllChar(name, ' ', '_');
    assert forall c :: c in underscored ==> c in name || c == '_' by {
      forall c | c in underscored ensures c in name || c == '_' {
        var i :| 0 <= i < |underscored| && underscored[i] == c;
        assert name[i] in name;
      }
    }
    DeleteChars(underscored, IdDropped)
  }

  /** A name without the characters `playlistId` rewrites is its own id. */
  lemma PlaylistIdOfClean(name: string)
    requires ' ' !in name && forall c :: c in IdDropped ==> c !in name
    ensures PlaylistId(name) == name
  {
    assert ReplaceAllChar(name, ' ', '_') == name;
    DeleteCharsKeepsClean(name, IdDropped);
  }

  /** The id of a concatenation is the concatenation of the ids. */
  lemma PlaylistIdAppend(a: string, b: string)
    ensures PlaylistId(a + b) == PlaylistId(a) + PlaylistId(b)
  {
    ReplaceAllCharAppend(a, b, ' ', '_');
    DeleteCharsAppend(ReplaceAllChar(a, ' ', '_'), ReplaceAllChar(b, ' ', '_'), IdDropped);
  }

  /** One character of a name: a space becomes `_`, a comma, period, hyphen or
      question mark disappears, and anything else is kept. */
  lemma PlaylistIdOfChar(c: char)
    ensures PlaylistId([c]) == if c == ' ' then "_" else if c in IdDropped then "" else [c]
  {
    assert ReplaceAllChar([c], ' ', '_') == [if c == ' ' then '_' else c];
  }

  lemma PlaylistIdIdempotent(name: string)
    ensures PlaylistId(PlaylistId(name)) == PlaylistId(name)
  {
    PlaylistIdOfClean(PlaylistId(name));
  }

  /** The non-empty lines of a text: the pieces between `\r` and `\n` characters
      that are not empty. */
  function LessonLines(text: string): seq<string> {
    NonEmpty(Split(text, LineBreaks))
  }

  /** `lessons.match(/[^\r\n]+/g)`: `None` when the text has no non-empty line. */
  function MatchLines(text: string): (r: Option<seq<string>>)
    ensures r.None? <==> LessonLines(text) == []
    ensures r.Some? ==> r.value == LessonLines(text)
  {
    RunsAreNonEmptyPieces(text, LineBreaks);
    var runs := Runs(text, LineBreaks);
    if runs == [] then None else Some(runs)
  }

  /** `path.join(collection, ...line.split('/'))`. */
  function LessonKey(collection: string, line: string): (r: string)
    ensures r != ""
    ensures collection != "" ==> (r[0] == Paths.Sep <==> collection[0] == Paths.Sep)
  {
    Paths.JoinPath([collection] + Split(line, {Paths.Sep}))
  }

  /** A path whose every segment is plain. */
  predicate PlainPath(p: string) {
    var segs := Split(p, {Paths.Sep});
    forall i :: 0 <= i < |segs| ==> Paths.PlainSegment(segs[i])
  }

  /** For a plain collection name and a plain relative line, the lesson key is
      the line under the collection's folder. */
  lemma LessonKeyPlain(collection: string, line: string)
    requires PlainPath(collection) && PlainPath(line)
    ensures LessonKey(collection, line) == collection + "/" + line
  {
    var cs := Split(collection, {Paths.Sep});
    var ls := Split(line, {Paths.Sep});
    var joined := collection + [Paths.Sep] + line;
    JoinedArgs(collection, line);
    JoinSplit(collection, Paths.Sep);
    JoinSplit(line, Paths.Sep);
    Paths.JoinAppend(cs, ls, [Paths.Sep]);
    assert Join(cs + ls, [Paths.Sep]) == joined;
    PlainConcat(cs, ls);
    Paths.NormalizePlain(cs + ls);
  }

  /** The arguments `path.join` receives for a plain line are all non-empty, and
      their `/`-join is the line under the collection. */
  lemma JoinedArgs(collection: string, line: string)
    requires PlainPath(collection) && PlainPath(line)
    ensures var args := [collection] + Split(line, {Paths.Sep});
            Join(NonEmpty(args), [Paths.Sep]) == collection + [Paths.Sep] + line
  {
    var cs := Split(collection, {Paths.Sep});
    var ls := Split(line, {Paths.Sep});
    assert Paths.PlainSegment(cs[0]);
    var args := [collection] + ls;
    forall i | 0 <= i < |args| ensures args[i] != "" {
      if i > 0 {
        assert args[i] == ls[i - 1];
        assert Paths.PlainSegment(ls[i - 1]);
      }
    }
    Paths.NonEmptyKeepsFull(args);
    Paths.JoinAppend([collection], ls, [Paths.Sep]);
    JoinSplit(line, Paths.Sep);
  }

  lemma PlainConcat(cs: seq<string>, ls: seq<string>)
    requires forall i :: 0 <= i < |cs| ==> Paths.PlainSegment(cs[i])
    requires forall i :: 0 <= i < |ls| ==> Paths.PlainSegment(ls[i])
    ensures forall i :: 0 <= i < |cs + ls| ==> Paths.PlainSegment((cs + ls)[i])
  {
    forall i | 0 <= i < |cs + ls| ensures Paths.PlainSegment((cs + ls)[i]) {
      if i < |cs| {
        assert (cs + ls)[i] == cs[i];
      } else {
        assert (cs + ls)[i] == ls[i - |cs|];
      }
    }
  }

  /** One playlist file `file` whose contents are `text`: its name, its id and one
      lesson lookup per non-empty line; a file without such a line throws. */
  function BuildPlaylist(files: Files, collection: string, file: string, text: string): (r: Result<Playlist, PluginError>)
    ensures r.Failure? <==> LessonLines(text) == []
  {
    var name := PlaylistName(file);
    match MatchLines(text)
    case None => Failure(NoLessonLines(file))
    case Some(lines) =>
      Success(Playlist(name, PlaylistId(name),
        seq(|lines|, i requires 0 <= i < |lines| => Lookup(files, LessonKey(collection, lines[i])))))
  }

  /** A playlist has one lesson per non-empty line of its file, in order, each the
      lookup of the line's key under the collection. */
  lemma BuildPlaylistSpec(files: Files, collection: string, file: string, text: string)
    ensures var r := BuildPlaylist(files, collection, file, text);
            var lines := LessonLines(text);
            && (r.Failure? ==> r.error == NoLessonLines(file))
            && (r.Success? ==> r.value.name == PlaylistName(file) && r.value.id == PlaylistId(r.value.name))
            && (r.Success? ==> |r.value.lessons| == |lines|)
            && (r.Success? ==> forall i :: 0 <= i < |lines| ==>
                  r.value.lessons[i] == Lookup(files, LessonKey(collection, lines[i])))
  {
  }

  /** The playlist keys of `collection` paired with their files' contents. */
  function PlaylistSources(files: Files, collection: string): (r: seq<(string, string)>)
    requires ValidFiles(files)
    ensures var paths := SelectPlaylists(collection, files.keys);
            |r| == |paths| &&
            forall i :: 0 <= i < |r| ==>
                          r[i].0 == paths[i] && paths[i] in files.entries &&
                          r[i].1 == files.entries[paths[i]].contents
  {
    var paths := SelectPlaylists(collection, files.keys);
    assert forall i :: 0 <= i < |paths| ==> paths[i] in paths;
    seq(|paths|, i requires 0 <= i < |paths| => (paths[i], files.entries[paths[i]].contents))
  }

  /** `metadata.playlists[collection]`: the `for (let file of playlists)` loop over
      the collection's playlist keys, stopped by the first file that throws. */
  function BuildCollection(files: Files, collection: string): (r: Result<seq<Playlist>, PluginError>)
    requires ValidFiles(files)
    ensures var src := PlaylistSources(files, collection);
            && (r.Success? <==> forall i :: 0 <= i < |src| ==> BuildPlaylist(files, collection, src[i].0, src[i].1).Success?)
            && (r.Success? ==> |r.value| == |src|)
            && (r.Success? ==> forall i :: 0 <= i < |src| ==>
                  BuildPlaylist(files, collection, src[i].0, src[i].1) == Success(r.value[i]))
            && (r.Failure? ==>
                  exists i :: 0 <= i < |src| &&
                              BuildPlaylist(files, collection, src[i].0, src[i].1) == Failure(r.error) &&
                              forall j :: 0 <= j < i ==> BuildPlaylist(files, collection, src[j].0, src[j].1).Success?)
  {
    var src := PlaylistSources(files, collection);
    MapUntilFailure(src, (e: (string, string)) => BuildPlaylist(files, collection, e.0, e.1))
  }

  /** A collection fails exactly when one of its playlist files has no non-empty
      line, and then with the error of the first such file. */
  lemma BuildCollectionFails(files: Files, collection: string)
    requires ValidFiles(files)
    ensures var src := PlaylistSources(files, collection);
            var r := BuildCollection(files, collection);
            && (r.Failure? <==> exists i :: 0 <= i < |src| && LessonLines(src[i].1) == [])
            && (r.Failure? ==>
                  exists i :: 0 <= i < |src| && LessonLines(src[i].1) == [] &&
                              r.error == NoLessonLines(src[i].0) &&
                              forall j :: 0 <= j < i ==> LessonLines(src[j].1) != [])
  {
    var src := PlaylistSources(files, collection);
    forall i | 0 <= i < |src| {
      BuildPlaylistSpec(files, collection, src[i].0, src[i].1);
    }
  }

  /** The plugin body: `metadata.playlists` is replaced by one entry per collection. */
  function RunPlugin(opts: Option<Options>, files: Files, metadata: Metadata): (r: Result<Metadata, PluginError>)
    requires ValidFiles(files)
    ensures r.Success? ==> r.value.playlists.Keys == set c | c in Collections(opts)
    ensures r.Success? ==> forall c :: c in r.value.playlists ==>
              BuildCollection(files, c) == Success(r.value.playlists[c])
    ensures r.Failure? <==> exists c :: c in Collections(opts) && BuildCollection(files, c).Failure?
  {
    match BuildEach(files, Collections(opts), map[])
    case Failure(e) => Failure(e)
    case Success(m) => Success(metadata.(playlists := m))
  }

  /** The plugin does not depend on the playlists metadata held before it ran:
      every run starts from an empty map. */
  lemma RunPluginResets(opts: Option<Options>, files: Files, m1: Metadata, m2: Metadata)
    requires ValidFiles(files)
    ensures RunPlugin(opts, files, m1) == RunPlugin(opts, files, m2)
  {
  }

  /** After a successful run, every configured collection holds one playlist per
      file key that matches its playlist pattern. */
  lemma RunPluginPlaylistCounts(opts: Option<Options>, files: Files, metadata: Metadata, c: string)
    requires ValidFiles(files)
    requires RunPlugin(opts, files, metadata).Success? && c in Collections(opts)
    ensures var r := RunPlugin(opts, files, metadata).value;
            c in r.playlists && |r.playlists[c]| == |SelectPlaylists(c, files.keys)|
  {
    var r := RunPlugin(opts, files, metadata).value;
    assert c in r.playlists;
    assert BuildCollection(files, c) == Success(r.playlists[c]);
  }

  /** `opts.collections.map(...)`, filling `acc` one collection at a time. */
  function BuildEach(files: Files, collections: seq<string>, acc: map<string, seq<Playlist>>): (r: Result<map<string, seq<Playlist>>, PluginError>)
    requires ValidFiles(files)
    ensures r.Success? ==> r.value.Keys == acc.Keys + set c | c in collections
    ensures r.Success? ==> forall c :: c in r.value && c !in collections ==> r.value[c] == acc[c]
    ensures r.Success? ==> forall c :: c in collections ==> BuildCollection(files, c) == Success(r.value[c])
    ensures r.Failure? <==> exists c :: c in collections && BuildCollection(files, c).Failure?
    decreases |collections|
  {
    if collections == [] then Success(acc)
    else
      var c := collections[0];
      ElementsCons(collections);
      match BuildCollection(files, c)
      case Failure(e) => Failure(e)
      case Success(ps) => BuildEach(files, collections[1..], acc[c := ps])
  }
}

=== FILE: strings.dfy ===
/** String operations of JavaScript's `String.prototype` that the two cores rely on. */
module Strings {
  import opened Wrappers

  predicate StartsWith(s: string, prefix: string) {
    |prefix| <= |s| && s[..|prefix|] == prefix
  }

  predicate EndsWith(s: string, suffix: string) {
    |suffix| <= |s| && s[|s| - |suffix|..] == suffix
  }

  /** `pat` occurs in `s` starting at index `i`. */
  predicate OccursAt(s: string, pat: string, i: int) {
    0 <= i && i + |pat| <= |s| && s[i..i + |pat|] == pat
  }

  predicate Contains(s: string, pat: string) {
    exists i :: 0 <= i <= |s| && OccursAt(s, pat, i)
  }

  /** `s.indexOf(pat, from)`: the first occurrence of `pat` at or after `from`. */
  function IndexOfFrom(s: string, pat: string, from: nat): (r: Option<nat>)
    requires from <= |s|
    ensures r.Some? ==> from <= r.value && OccursAt(s, pat, r.value)
    ensures r.Some? ==> forall j :: from <= j < r.value ==> !OccursAt(s, pat, j)
    ensures r.None? ==> forall j :: from <= j ==> !OccursAt(s, pat, j)
    decreases |s| - from
  {
    if OccursAt(s, pat, from) then Some(from)
    else if from == |s| then None
    else IndexOfFrom(s, pat, from + 1)
  }

  /** `s.indexOf(pat)`, with `-1` rendered as `None`. */
  function IndexOf(s: string, pat: string): (r: Option<nat>)
    ensures r.Some? <==> Contains(s, pat)
    ensures r.Some? ==> OccursAt(s, pat, r.value)
    ensures r.Some? ==> forall j :: 0 <= j < r.value ==> !OccursAt(s, pat, j)
  {
    IndexOfFrom(s, pat, 0)
  }

  /** `s.replace(pat, rep)` with a string pattern: only the first occurrence is replaced. */
  function ReplaceFirst(s: string, pat: string, rep: string): (r: string)
    ensures !Contains(s, pat) ==> r == s
    ensures Contains(s, pat) ==> |r| == |s| - |pat| + |rep|
    ensures Contains(s, pat) ==>
              exists i :: 0 <= i <= |s| - |pat| && OccursAt(s, pat, i) &&
                          (forall j :: 0 <= j < i ==> !OccursAt(s, pat, j)) &&
                          r == s[..i] + rep + s[i + |pat|..]
    ensures forall c :: c in r ==> c in s || c in rep
  {
    match IndexOf(s, pat)
    case None => s
    case Some(i) =>
      SliceChars(s, 0, i);
      SliceChars(s, i + |pat|, |s|);
      assert s[..i] == s[0..i] && s[i + |pat|..] == s[i + |pat|..|s|];
      s[..i] + rep + s[i + |pat|..]
  }

  /** Every character of a slice is a character of the whole. */
  lemma SliceChars(s: string, i: nat, j: nat)
    requires i <= j <= |s|
    ensures forall c :: c in s[i..j] ==> c in s
  {
    forall c | c in s[i..j] ensures c in s {
      var k :| 0 <= k < j - i && s[i..j][k] == c;
      assert s[i + k] == c;
    }
  }

  /** `s.replace(/a/g, b)` for a single character `a`. */
  function ReplaceAllChar(s: string, a: char, b: char): (r: string)
    ensures |r| == |s|
    ensures forall i :: 0 <= i < |s| ==> r[i] == (if s[i] == a then b else s[i])
  {
    if s == [] then []
    else [if s[0] == a then b else s[0]] + ReplaceAllChar(s[1..], a, b)
  }

  /** Replacing every `a` works piece by piece. */
  lemma ReplaceAllCharAppend(s: string, t: string, a: char, b: char)
    ensures ReplaceAllChar(s + t, a, b) == ReplaceAllChar(s, a, b) + ReplaceAllChar(t, a, b)
  {
    var l := ReplaceAllChar(s + t, a, b);
    var r := ReplaceAllChar(s, a, b) + ReplaceAllChar(t, a, b);
    assert |l| == |r|;
    forall i | 0 <= i < |l| ensures l[i] == r[i] {
      if i < |s| {
        assert (s + t)[i] == s[i];
      } else {
        assert (s + t)[i] == t[i - |s|];
      }
    }
  }

  /** `s.replace(/[...]/g, '')`: every character of `drop` deleted, the rest kept in order. */
  function DeleteChars(s: string, drop: set<char>): (r: string)
    ensures forall c :: c in r ==> c in s && c !in drop
    ensures |r| <= |s|
    ensures |s| == 1 ==> r == (if s[0] in drop then [] else s)
  {
    if s == [] then []
    else if s[0] in drop then DeleteChars(s[1..], drop)
    else [s[0]] + DeleteChars(s[1..], drop)
  }

  /** Deleting characters works piece by piece: every kept character stays, in order. */
  lemma {:induction false} DeleteCharsAppend(s: string, t: string, drop: set<char>)
    ensures DeleteChars(s + t, drop) == DeleteChars(s, drop) + DeleteChars(t, drop)
    decreases |s|
  {
    if s == [] {
      assert s + t == t;
    } else {
      assert (s + t)[0] == s[0];
      assert (s + t)[1..] == s[1..] + t;
      DeleteCharsAppend(s[1..], t, drop);
    }
  }

  lemma {:induction false} DeleteCharsKeepsClean(s: string, drop: set<char>)
    requires forall c :: c in s ==> c !in drop
    ensures DeleteChars(s, drop) == s
  {
    if s != [] {
      assert s[0] in s;
      assert forall c :: c in s[1..] ==> c in s;
      DeleteCharsKeepsClean(s[1..], drop);
    }
  }

  /** The characters JavaScript's `/i` flag folds for an ASCII pattern. */
  function LowerChar(c: char): (r: char)
    ensures 'A' <= c <= 'Z' ==> r as int == c as int + 32
    ensures !('A' <= c <= 'Z') ==> r == c
  {
    if 'A' <= c <= 'Z' then (c as int + 32) as char else c
  }

  function LowerAscii(s: string): (r: string)
    ensures |r| == |s|
    ensures forall i :: 0 <= i < |s| ==> r[i] == LowerChar(s[i])
  {
    if s == [] then [] else [LowerChar(s[0])] + LowerAscii(s[1..])
  }

  /** The elements of a non-empty sequence are its head and the elements of its tail. */
  lemma ElementsCons(xs: seq<string>)
    requires xs != []
    ensures (set x | x in xs) == {xs[0]} + set x | x in xs[1..]
  {
    assert xs == [xs[0]] + xs[1..];
  }

  /** The elements of a concatenation are those of its two parts. */
  lemma ElementsAppend(xs: seq<string>, ys: seq<string>)
    ensures (set x | x in xs + ys) == (set x | x in xs) + set y | y in ys
  {
  }

  /** `s.split(sep)` for a one-character separator, generalised to a set of separators:
      the pieces between consecutive separators, empty pieces included. */
  function Split(s: string, seps: set<char>): (r: seq<string>)
    ensures |r| >= 1
    ensures forall i :: 0 <= i < |r| ==> NoneOf(r[i], seps)
    decreases |s|
  {
    if s == [] then [""]
    else
      var rest := Split(s[1..], seps);
      if s[0] in seps then [""] + rest
      else [[s[0]] + rest[0]] + rest[1..]
  }

  predicate NoneOf(s: string, seps: set<char>) {
    forall i :: 0 <= i < |s| ==> s[i] !in seps
  }

  /** `parts.join(sep)`. */
  function Join(parts: seq<string>, sep: string): string {
    if parts == [] then ""
    else if |parts| == 1 then parts[0]
    else parts[0] + sep + Join(parts[1..], sep)
  }

  /** Splitting at one separator and joining with it again gives back the string. */
  lemma {:induction false} JoinSplit(s: string, sep: char)
    ensures Join(Split(s, {sep}), [sep]) == s
    decreases |s|
  {
    if s != [] {
      var rest := Split(s[1..], {sep});
      JoinSplit(s[1..], sep);
      if s[0] == sep {
        assert Split(s, {sep}) == [""] + rest;
        assert Join([""] + rest, [sep]) == "" + [sep] + Join(rest, [sep]);
        assert s == [s[0]] + s[1..];
      } else {
        var parts := [[s[0]] + rest[0]] + rest[1..];
        assert Split(s, {sep}) == parts;
        if |rest| == 1 {
          assert Join(parts, [sep]) == [s[0]] + rest[0];
          assert Join(rest, [sep]) == rest[0];
        } else {
          assert parts[1..] == rest[1..];
          assert Join(parts, [sep]) == [s[0]] + rest[0] + [sep] + Join(rest[1..], [sep]);
          assert Join(rest, [sep]) == rest[0] + [sep] + Join(rest[1..], [sep]);
        }
        assert s == [s[0]] + s[1..];
      }
    }
  }

  /** Joining separator-free pieces and splitting again gives back the pieces. */
  lemma {:induction false} SplitJoin(parts: seq<string>, sep: char)
    requires |parts| >= 1
    requires forall i :: 0 <= i < |parts| ==> NoneOf(parts[i], {sep})
    ensures Split(Join(parts, [sep]), {sep}) == parts
    decreases |parts|
  {
    if |parts| == 1 {
      SplitFree(parts[0], {sep}, []);
      assert parts[0] + [] == parts[0];
      assert Join(parts, [sep]) == parts[0];
    } else {
      SplitJoin(parts[1..], sep);
      var tail := Join(parts[1..], [sep]);
      assert Join(parts, [sep]) == parts[0] + ([sep] + tail);
      SplitFree(parts[0], {sep}, [sep] + tail);
      assert Split([sep] + tail, {sep}) == [""] + Split(tail, {sep}) by {
        assert ([sep] + tail)[1..] == tail;
      }
      var pieces := [""] + parts[1..];
      assert pieces[0] == "" && pieces[1..] == parts[1..];
      assert parts[0] + "" == parts[0];
      assert [parts[0]] + parts[1..] == parts;
    }
  }

  /** A separator-free prefix glues onto the first piece of what follows it. */
  lemma {:induction false} SplitFree(p: string, seps: set<char>, t: string)
    requires NoneOf(p, seps)
    ensures Split(p + t, seps) == [p + Split(t, seps)[0]] + Split(t, seps)[1..]
    decreases |p|
  {
    if p != [] {
      assert p[0] !in seps;
      assert NoneOf(p[1..], seps) by {
        forall i | 0 <= i < |p[1..]| ensures p[1..][i] !in seps {
          assert p[1..][i] == p[i + 1];
        }
      }
      SplitFree(p[1..], seps, t);
      assert (p + t)[1..] == p[1..] + t;
      assert (p + t)[0] == p[0];
      assert [p[0]] + p[1..] == p;
      var rest := Split(p[1..] + t, seps);
      assert Split(p + t, seps) == [[p[0]] + rest[0]] + rest[1..];
      assert [p[0]] + (p[1..] + Split(t, seps)[0]) == p + Split(t, seps)[0];
    } else {
      assert p + t == t;
      assert p + Split(t, seps)[0] == Split(t, seps)[0];
      assert [Split(t, seps)[0]] + Split(t, seps)[1..] == Split(t, seps);
    }
  }

  /** The non-empty elements of `parts`, in order. */
  function NonEmpty(parts: seq<string>): (r: seq<string>)
    ensures |r| <= |parts|
    ensures forall i :: 0 <= i < |r| ==> r[i] != ""
  {
    if parts == [] then []
    else if parts[0] == "" then NonEmpty(parts[1..])
    else [parts[0]] + NonEmpty(parts[1..])
  }

  /** Length of the longest prefix of `s` that contains no separator. */
  function RunLength(s: string, seps: set<char>): (n: nat)
    ensures n <= |s|
    ensures NoneOf(s[..n], seps)
    ensures n < |s| ==> s[n] in seps
  {
    if s == [] || s[0] in seps then 0 else 1 + RunLength(s[1..], seps)
  }

  /** The matches of the global pattern `/[^seps]+/g`: scanning left to right, every
      separator is skipped and every other character starts a greedy maximal run. */
  function Runs(s: string, seps: set<char>): seq<string>
    decreases |s|
  {
    if s == [] then []
    else if s[0] in seps then Runs(s[1..], seps)
    else
      var n := RunLength(s, seps);
      [s[..n]] + Runs(s[n..], seps)
  }

  /** The greedy matches are exactly the non-empty pieces between separators. */
  lemma {:induction false} RunsAreNonEmptyPieces(s: string, seps: set<char>)
    ensures Runs(s, seps) == NonEmpty(Split(s, seps))
    decreases |s|
  {
    if s == [] {
    } else if s[0] in seps {
      RunsAreNonEmptyPieces(s[1..], seps);
      assert Split(s, seps) == [""] + Split(s[1..], seps);
      assert ([""] + Split(s[1..], seps))[1..] == Split(s[1..], seps);
    } else {
      var n := RunLength(s, seps);
      RunsAreNonEmptyPieces(s[n..], seps);
      assert s == s[..n] + s[n..];
      SplitFree(s[..n], seps, s[n..]);
      var pieces := Split(s[n..], seps);
      assert Split(s, seps) == [s[..n] + pieces[0]] + pieces[1..];
      if n == |s| {
        assert s[n..] == [];
        assert pieces == [""];
        assert s[..n] + "" == s[..n];
        assert NonEmpty([s[..n]]) == [s[..n]] + NonEmpty([]);
      } else {
        assert pieces == [""] + Split(s[n + 1..], seps) by {
          assert s[n..][0] == s[n];
          assert s[n..][1..] == s[n + 1..];
        }
        assert s[..n] + pieces[0] == s[..n];
        assert NonEmpty(pieces) == NonEmpty(pieces[1..]);
        var whole := [s[..n]] + pieces[1..];
        assert whole[1..] == pieces[1..];
      }
    }
  }
}

=== FILE: wrappers.dfy ===
/** Option and Result values, and a map that stops at the first failing element, used by the crawl and playlist models. */
module Wrappers {

  /** An optional value: a JavaScript lookup that may yield `undefined`. */
  datatype Option<+T> = None | Some(value: T)

  /** A computation that either produces a value or stops with an error. */
  datatype Result<+R, +E> = Success(value: R) | Failure(error: E)

  /** Applies `f` to the elements of `xs` in order and stops at the first failure,
      as a loop whose body may throw does. */
  function MapUntilFailure<T, U, E>(xs: seq<T>, f: T -> Result<U, E>): (r: Result<seq<U>, E>)
    ensures r.Success? <==> forall i :: 0 <= i < |xs| ==> f(xs[i]).Success?
    ensures r.Success? ==> |r.value| == |xs|
    ensures r.Success? ==> forall i :: 0 <= i < |xs| ==> f(xs[i]) == Success(r.value[i])
    ensures r.Failure? ==>
              exists i :: 0 <= i < |xs| && f(xs[i]) == Failure(r.error) &&
                          forall j :: 0 <= j < i ==> f(xs[j]).Success?
    decreases |xs|
  {
    if xs == [] then Success([])
    else
      match f(xs[0])
      case Failure(e) => Failure(e)
      case Success(y) =>
        match MapUntilFailure(xs[1..], f)
        case Failure(e) =>
          assert forall j :: 1 <= j < |xs| ==> xs[j] == xs[1..][j - 1];
          Failure(e)
        case Success(ys) =>
          assert forall j :: 1 <= j < |xs| ==> xs[j] == xs[1..][j - 1];
          Success([y] + ys)
  }
}
